=== FILE: README.md ===
# Integrated Dynamics value helpers, part network and block values, in Dafny

This project models three pieces of the Integrated Dynamics logistics mod and proves properties of them.

- **`ValueHelpers`**
  - Applying an operator to a list of variables, with currying when too few are given and chaining when too many are given (`evaluateOperator`).
  - The backslash transcoder `compressSlashes` / `uncompressSlashes`.
  - The persisted value string: `serializeRaw` / `deserializeRaw` with the `"TOO LONG"` sentinel.
  - `areValuesEqual`, `correspondsTo`, and the two `from` mappers.
- **`PartNetwork`**
  - The map from part ids to part positions.
  - The list of variable-container positions, and the composite variable cache that heals the list when it is rebuilt.
  - The values evaluated during one tick.
  - The parts-changed signal raised by `notifyPartsChanged` / `removeCable` and consumed by `onUpdate`.
- **`ValueObjectTypeBlock`**
  - The `name$meta` string form of a block state.
  - The default block, air.
  - Equality of block values.

Files, in dependency order:

| file | module | contents |
|---|---|---|
| `wrappers.dfy` | `Wrappers` | `Option` and `Result` |
| `java_strings.dfy` | `JavaStrings` | Java `int` (32-bit, wrapping addition, truncating division), `Integer.toString`, `Integer.parseInt`, `indexOf`, `String.split` with a literal separator (trailing empty pieces dropped), `StringUtils.repeat` |
| `values.dfy` | `Values` | values, value types, variables, operators; `areValuesEqual`, `correspondsTo`, `from` |
| `evaluation.dfy` | `Evaluation` | `evaluateOperator` on variables and on values |
| `slash_codec.dfy` | `SlashCodec` | run-length reference encoding, `compressSlashes`, `uncompressSlashes`, `serializeRaw`, `deserializeRaw` |
| `slash_compression.dfy` | `SlashCompression` | the scanning loop of `compressSlashes`, proved to compute the reference encoding |
| `slash_codec_proofs.dfy` | `SlashCodecProofs` | round trip, idempotence, short runs copied, failure on marker text |
| `part_network.dfy` | `PartNetworks` | the network record and its operations |
| `block_value_type.dfy` | `BlockValueType` | the block value codec, default and equality |

Modelling choices:

- **Operators.** Operators are abstract. The `Semantics` record supplies each operator's arity (`getRequiredInputLength`), its `evaluate` and its translation key. This covers primitive and `CurriedOperator` alike.
- **The world.** `World` is a pair of maps: the part containers by block position (`TileMultipartTicking.get`), and the variable maps of the blocks that are variable containers.
- **Part readers.** The variable lookups of reader part types and reader part states are the functions in `Readers`.
- **Configuration.** `GeneralConfig.maxValueByteSize` is a parameter.
- **The network.** The network is an immutable record. Each operation returns the record after the call, paired with the Java return value where there is one.
- **Java errors.** Where the Java code throws, the model returns a `Failure`. This covers `substring` or `charAt` out of range, `parseInt` failing, and array index out of range. It also covers the null dereferences of `getPartState` and `getPartType` (unknown id, or no container at the position) and the null dereferences and failing casts of `getPartVariable`. What a container returns for a side without a part is not part of this model; it is taken to be `null`, `Success(None)` (see "Left out").

Where the documented intent and the code disagree, the model follows the code.

- **Transcoder on arbitrary text.** `uncompressSlashes` undoes `compressSlashes` on text without `#`, but not when the input already contains the marker text. `SlashCodecProofs.HashlessFragmentFails` shows that `uncompressSlashes` throws whenever the split on the marker keeps a piece after a marker that has no `#` in it (`#H#A#C#K#x`, for one, in `MarkerInInputFails`), and so does `compressSlashes` once the input is long enough. A marker at the very end is not such a piece, because `String.split` drops the empty piece after it: `abc#H#A#C#K#` is returned unchanged (`TrailingMarkerKept`), while the lone marker splits into no pieces and reading the first one throws (`LoneMarkerFails`). The round trip is therefore proved for text without `#`.
- **Trailing backslash runs.** A run that reaches the end of the string is counted one short by the inner loop, because of its guard `i < str.length() - 1`. Its last backslash is then appended as the current character. `SlashCodec.EncodeRuns` encodes exactly that, and the round trip still holds.

## Model

| member | source | states |
|---|---|---|
| Values.AreValuesEqual | src/main/java/org/cyclops/integrateddynamics/core/evaluate/variable/ValueHelpers.java:82-84 | two absent values are equal; an absent and a present one are not; two present ones are equal exactly when `equals` says so |
| Values.AreValuesEqualReflexive | src/main/java/org/cyclops/integrateddynamics/core/evaluate/variable/ValueHelpers.java:82-84 | with a reflexive `equals`, every value, absent included, equals itself |
| Values.AreValuesEqualSymmetric | src/main/java/org/cyclops/integrateddynamics/core/evaluate/variable/ValueHelpers.java:82-84 | with a symmetric `equals`, the comparison does not depend on argument order |
| Values.CorrespondsTo | src/main/java/org/cyclops/integrateddynamics/core/evaluate/variable/ValueHelpers.java:92-94 | the types correspond when either one-way check holds, and only then |
| Values.CorrespondsToSymmetric | src/main/java/org/cyclops/integrateddynamics/core/evaluate/variable/ValueHelpers.java:92-94 | the two-way check is symmetric, holds when either one-way check holds, and fails only when both fail |
| Values.FromVariables | src/main/java/org/cyclops/integrateddynamics/core/evaluate/variable/ValueHelpers.java:37-44 | one type per variable, same length and position; an absent variable gives an absent type, a present one its own type |
| Values.FromFacades | src/main/java/org/cyclops/integrateddynamics/core/evaluate/variable/ValueHelpers.java:52-59 | one output type per facade, same length and position; an absent facade gives an absent type |
| Evaluation.EvaluateOperator | src/main/java/org/cyclops/integrateddynamics/core/evaluate/variable/ValueHelpers.java:119-145 | exactly the arity: the operator's own result, errors included; too few: an operator value wrapping the operator curried with the given variables in order, nothing evaluated; too many: the error of the operator on its share is passed on, and a non-operator result is a currying-overflow error with the key, the arity, the count and the result type |
| Evaluation.OverflowChains | src/main/java/org/cyclops/integrateddynamics/core/evaluate/variable/ValueHelpers.java:124-139 | with too many inputs the first `n` go to the operator and all the rest, in order, to the operator it returns; none is dropped or repeated |
| Evaluation.ZeroArityForwardsAll | src/main/java/org/cyclops/integrateddynamics/core/evaluate/variable/ValueHelpers.java:124-139 | a zero-arity operator is applied to no input and its result gets every input; each such step uses one unit of the bound |
| Evaluation.CurryThenApply | src/main/java/org/cyclops/integrateddynamics/core/evaluate/variable/ValueHelpers.java:141-142 | too few inputs give the curried operator; if that operator behaves as currying should, giving it the missing inputs equals giving all of them at once |
| Evaluation.OverflowErrorNamesArity | src/main/java/org/cyclops/integrateddynamics/core/evaluate/variable/ValueHelpers.java:132-135 | an arity-1 operator given two inputs whose result is not an operator fails with an error naming its key, 1, 2 and the result's type |
| Evaluation.EvaluateOperatorOnValues | src/main/java/org/cyclops/integrateddynamics/core/evaluate/variable/ValueHelpers.java:103-110 | every value is wrapped, in order, in a constant variable of its own type, and the operator is evaluated on those |
| SlashCodec.CompressSlashes | src/main/java/org/cyclops/integrateddynamics/core/evaluate/variable/ValueHelpers.java:171-176 | a string shorter than a quarter of the maximum value size is returned as is; a longer one whose decompression fails makes compression fail |
| SlashCodec.UncompressSlashes | src/main/java/org/cyclops/integrateddynamics/core/evaluate/variable/ValueHelpers.java:203-232 | text without the marker is returned as is; otherwise the first piece is followed by every later piece expanded by `ExpandFragment` through `ExpandFragments`, whose meaning `ExpandCount` and `ExpandFragmentsFails` state |
| SlashCodec.SerializeRaw | src/main/java/org/cyclops/integrateddynamics/core/evaluate/variable/ValueHelpers.java:152-159 | the result is the compressed string when it is shorter than the maximum size and the sentinel exactly otherwise, so it is always shorter than the cap or the sentinel; a failing compression fails |
| SlashCodec.DeserializeRaw | src/main/java/org/cyclops/integrateddynamics/core/evaluate/variable/ValueHelpers.java:266-272 | the sentinel gives the type's default; text without the marker is handed to the type's `deserialize` unchanged |
| SlashCompression.CountRun | src/main/java/org/cyclops/integrateddynamics/core/evaluate/variable/ValueHelpers.java:182-187 | the inner loop stops on the first character after the run of backslashes, or on the last character; everything it passed is a backslash |
| SlashCompression.EmitRun | src/main/java/org/cyclops/integrateddynamics/core/evaluate/variable/ValueHelpers.java:189-198 | one pass appends the run's replacement and the character that ended it, keeping the emitted text plus the encoding of the rest equal to the encoding of the whole |
| SlashCompression.CompressLoop | src/main/java/org/cyclops/integrateddynamics/core/evaluate/variable/ValueHelpers.java:178-200 | the scanning loop computes the run-length encoding `EncodeRuns`: runs of at most 32 backslashes copied, longer runs as marker, count minus one and `#\#` |
| SlashCodecProofs.ExpandCount | src/main/java/org/cyclops/integrateddynamics/core/evaluate/variable/ValueHelpers.java:217-229 | the fragment `<n>#\#<rest>` that compression writes expands to `n + 1` backslashes followed by `rest` |
| SlashCodecProofs.DecodesUncompress | src/main/java/org/cyclops/integrateddynamics/core/evaluate/variable/ValueHelpers.java:207-231 | pieces that expand to `s` make decompression return `s` |
| SlashCodecProofs.EncodeDecodes | src/main/java/org/cyclops/integrateddynamics/core/evaluate/variable/ValueHelpers.java:189-197 | splitting the encoding of `#`-free text on the marker and expanding the pieces gives the text back |
| SlashCodecProofs.UncompressEncodeRuns | src/main/java/org/cyclops/integrateddynamics/core/evaluate/variable/ValueHelpers.java:203-232 | decompression inverts the encoding on every `#`-free Java string |
| SlashCodecProofs.CompressRoundTrip | src/main/java/org/cyclops/integrateddynamics/core/evaluate/variable/ValueHelpers.java:171-232 | `uncompressSlashes(compressSlashes(s)) == s` for `#`-free `s`, whatever the maximum value size; compression does not fail on such input |
| SlashCodecProofs.CompressIdempotent | src/main/java/org/cyclops/integrateddynamics/core/evaluate/variable/ValueHelpers.java:175-176 | compressing the compressed form of `#`-free text changes nothing, since compression first decompresses |
| SlashCodecProofs.ShortRunsCopied | src/main/java/org/cyclops/integrateddynamics/core/evaluate/variable/ValueHelpers.java:193-197 | text whose backslash runs are all at most 32 long is encoded as itself |
| SlashCodecProofs.SerializeRawRoundTrip | src/main/java/org/cyclops/integrateddynamics/core/evaluate/variable/ValueHelpers.java:152-159 | for `#`-free raw text, reading back what `serializeRaw` persisted gives the type's deserialization of the raw text, or its default when the sentinel was written |
| SlashCodecProofs.ExpandFragmentsFails | src/main/java/org/cyclops/integrateddynamics/core/evaluate/variable/ValueHelpers.java:214-229 | one fragment that cannot be expanded makes the expansion of all of them fail |
| SlashCodecProofs.HashlessFragmentFails | src/main/java/org/cyclops/integrateddynamics/core/evaluate/variable/ValueHelpers.java:203-229 | when a piece the marker split keeps after the first has no `#`, decompression fails, and compression fails too once the input is long enough to be decompressed first |
| SlashCodecProofs.MarkerInInputFails | src/main/java/org/cyclops/integrateddynamics/core/evaluate/variable/ValueHelpers.java:203-229 | the input `#H#A#C#K#x` makes decompression fail with an index error, and compression of it as well with a cap of 40 |
| SlashCodecProofs.TrailingMarkerKept | src/main/java/org/cyclops/integrateddynamics/core/evaluate/variable/ValueHelpers.java:207-211 | non-empty `#`-free text followed by the marker decompresses to itself, since the empty piece after the marker is dropped |
| SlashCodecProofs.LoneMarkerFails | src/main/java/org/cyclops/integrateddynamics/core/evaluate/variable/ValueHelpers.java:207-213 | the marker alone splits into no pieces, and reading the first piece fails with an index error |
| PartNetworks.Empty | src/main/java/org/cyclops/integrateddynamics/core/network/PartNetwork.java:40-52 | a new network has no parts, no variable-container positions, an unbuilt cache, no values and no pending change; no id is a part in any world and none has a value |
| PartNetworks.AddPart | src/main/java/org/cyclops/integrateddynamics/core/network/PartNetwork.java:67-74 | succeeds exactly for an unknown id and then maps it to the position; a known id fails and changes nothing; other ids and the rest of the network are untouched |
| PartNetworks.RemovePart | src/main/java/org/cyclops/integrateddynamics/core/network/PartNetwork.java:88-91 | the id is gone; all other ids keep their positions; removing an unknown id is a no-op |
| PartNetworks.AddRemovePart | src/main/java/org/cyclops/integrateddynamics/core/network/PartNetwork.java:67-91 | adding a new id and removing it restores the network |
| PartNetworks.RemovePartIdempotent | src/main/java/org/cyclops/integrateddynamics/core/network/PartNetwork.java:88-91 | removing twice equals removing once |
| PartNetworks.HasPart | src/main/java/org/cyclops/integrateddynamics/core/network/PartNetwork.java:93-101 | false for an unknown id; otherwise true exactly when a container exists at the mapped position and has a part on the mapped side; the map is not changed |
| PartNetworks.GetPartState | src/main/java/org/cyclops/integrateddynamics/core/network/PartNetwork.java:76-80 | a null dereference exactly when the id is unknown or no container is at its position; a state exactly when the part is present, and then the state of the part on that side |
| PartNetworks.GetPartType | src/main/java/org/cyclops/integrateddynamics/core/network/PartNetwork.java:82-86 | a null dereference exactly when the id is unknown or no container is at its position; a type exactly when the part is present, and then the type of the part on that side |
| PartNetworks.HasPartVariable | src/main/java/org/cyclops/integrateddynamics/core/network/PartNetwork.java:103-118 | true exactly when the part is present, its state and its type are readers, and the type gives a variable for the aspect at the part's position |
| PartNetworks.PartVariableAvailable | src/main/java/org/cyclops/integrateddynamics/core/network/PartNetwork.java:104-123 | when `hasPartVariable` holds, `getPartVariable` does not throw; when it does not throw, the part is present |
| PartNetworks.GetPartVariable | src/main/java/org/cyclops/integrateddynamics/core/network/PartNetwork.java:120-123 | a missing part is a null dereference; a state that is not a reader is a failed cast; a present reader part gives exactly the state's variable for the aspect |
| PartNetworks.RemovedPartIsGone | src/main/java/org/cyclops/integrateddynamics/core/network/PartNetwork.java:88-118 | after removal neither the part nor any variable of it is reported, whatever the world holds |
| PartNetworks.AddedPartPresence | src/main/java/org/cyclops/integrateddynamics/core/network/PartNetwork.java:67-101 | a newly added id is reported present exactly when the world has a part at its position |
| PartNetworks.ValidPositionsMembers | src/main/java/org/cyclops/integrateddynamics/core/network/PartNetwork.java:129-139 | a position survives the rebuild exactly when it was listed and is a variable container |
| PartNetworks.ValidPositionsAppend | src/main/java/org/cyclops/integrateddynamics/core/network/PartNetwork.java:129-139 | the rebuild filter distributes over concatenation, so survivors keep their relative order |
| PartNetworks.ValidPositionsAllValid | src/main/java/org/cyclops/integrateddynamics/core/network/PartNetwork.java:129-139 | a list of valid positions is kept whole |
| PartNetworks.RebuildCache | src/main/java/org/cyclops/integrateddynamics/core/network/PartNetwork.java:129-140 | the iterator loop keeps exactly the valid positions, in order, and collects their variable maps in the same order |
| PartNetworks.GetVariableCache | src/main/java/org/cyclops/integrateddynamics/core/network/PartNetwork.java:125-144 | an unbuilt cache is rebuilt from the valid positions, the invalid ones are removed from the list and the cache is left built; a built cache is returned with nothing changed; parts, values and signal are untouched |
| PartNetworks.GetVariableCacheIdempotent | src/main/java/org/cyclops/integrateddynamics/core/network/PartNetwork.java:125-144 | a second request returns the same maps and changes nothing, even if the world changed in between |
| PartNetworks.RebuildKeepsValid | src/main/java/org/cyclops/integrateddynamics/core/network/PartNetwork.java:129-139 | after a rebuild the list holds a position exactly when it held it before and it is a variable container |
| PartNetworks.CompositeGetNone | src/main/java/org/cyclops/integrateddynamics/core/network/PartNetwork.java:151-154 | the composite lookup finds nothing exactly when no container map has the id |
| PartNetworks.CompositeGetFirst | src/main/java/org/cyclops/integrateddynamics/core/network/PartNetwork.java:151-154 | the first container map holding the id decides the lookup |
| PartNetworks.RebuiltCacheHas | src/main/java/org/cyclops/integrateddynamics/core/network/PartNetwork.java:125-141 | the rebuilt cache has an id exactly when some listed position is a variable container holding it |
| PartNetworks.HasVariableFacade | src/main/java/org/cyclops/integrateddynamics/core/network/PartNetwork.java:146-149 | on a built cache: whether one of its maps has the id; on a cache still to be built: whether some listed position is a variable container holding the id |
| PartNetworks.GetVariableFacade | src/main/java/org/cyclops/integrateddynamics/core/network/PartNetwork.java:151-154 | builds the cache if needed, finds a facade exactly when `hasVariableFacade` is true, and returns the entry of the first cached map that holds the id |
| PartNetworks.AddVariableContainer | src/main/java/org/cyclops/integrateddynamics/core/network/PartNetwork.java:176-180 | appends the position at the end, keeps the earlier ones, returns true and drops the cache; nothing else changes |
| PartNetworks.RemoveFirstCounts | src/main/java/org/cyclops/integrateddynamics/core/network/PartNetwork.java:182-186 | list removal takes exactly one copy of the position out, and leaves a list without it unchanged |
| PartNetworks.RemoveFirstAt | src/main/java/org/cyclops/integrateddynamics/core/network/PartNetwork.java:182-186 | it is the first occurrence that goes; the elements before and after it stay in order |
| PartNetworks.RemoveVariableContainer | src/main/java/org/cyclops/integrateddynamics/core/network/PartNetwork.java:182-186 | the first occurrence of the position is removed and the rest keep their order (one copy fewer; an absent position changes nothing), the cache is dropped, nothing else changed |
| PartNetworks.RemoveFirstAppended | src/main/java/org/cyclops/integrateddynamics/core/network/PartNetwork.java:176-186 | removing a position that was just appended to a list without it gives the list back |
| PartNetworks.AddRemoveVariableContainer | src/main/java/org/cyclops/integrateddynamics/core/network/PartNetwork.java:176-186 | adding a new container position and removing it restores the network except that the cache stays dropped |
| PartNetworks.AddedContainerRebuilt | src/main/java/org/cyclops/integrateddynamics/core/network/PartNetwork.java:125-180 | after adding a position, the next rebuild keeps it exactly when it is a variable container, after the earlier survivors |
| PartNetworks.SetValue | src/main/java/org/cyclops/integrateddynamics/core/network/PartNetwork.java:156-169 | afterwards the id has the value; every other id keeps its presence and value; nothing else changes |
| PartNetworks.HasValue | src/main/java/org/cyclops/integrateddynamics/core/network/PartNetwork.java:161-164 | true exactly when `getValue` gives a value |
| PartNetworks.GetValue | src/main/java/org/cyclops/integrateddynamics/core/network/PartNetwork.java:166-169 | a value exactly when one was set for the id |
| PartNetworks.NotifyPartsChanged | src/main/java/org/cyclops/integrateddynamics/core/network/PartNetwork.java:188-191 | raises the signal and changes nothing else |
| PartNetworks.OnUpdate | src/main/java/org/cyclops/integrateddynamics/core/network/PartNetwork.java:197-208 | clears every value of the tick and lowers the signal; reports that the change handler ran exactly when the signal was raised; parts, positions and cache are untouched |
| PartNetworks.RemoveCable | src/main/java/org/cyclops/integrateddynamics/core/network/PartNetwork.java:210-217 | returns the base class's answer and raises the signal exactly when that answer is true |
| PartNetworks.ChangesCoalesce | src/main/java/org/cyclops/integrateddynamics/core/network/PartNetwork.java:188-208 | several notifications before an update signal the change once; the following update does not signal it again |
| PartNetworks.ValuesLastOneTick | src/main/java/org/cyclops/integrateddynamics/core/network/PartNetwork.java:156-208 | a value set in a tick is readable until the update and gone after it; the update forgets it completely |
| PartNetworks.RemovedCableSignalled | src/main/java/org/cyclops/integrateddynamics/core/network/PartNetwork.java:197-217 | a successful cable removal is signalled at the next update, a failed one is not |
| BlockValueType.Default | src/main/java/org/cyclops/integrateddynamics/core/evaluate/variable/ValueObjectTypeBlock.java:20-23 | the default is air with metadata 0, and its string form reads back as itself |
| BlockValueType.Serialize | src/main/java/org/cyclops/integrateddynamics/core/evaluate/variable/ValueObjectTypeBlock.java:30-34 | the text starts with the name, then `$`, then a non-empty, optionally signed decimal without `$` that parses back to the metadata |
| BlockValueType.Deserialize | src/main/java/org/cyclops/integrateddynamics/core/evaluate/variable/ValueObjectTypeBlock.java:36-47 | every failure names the input string; text without `$` always fails |
| BlockValueType.SerializeRoundTrip | src/main/java/org/cyclops/integrateddynamics/core/evaluate/variable/ValueObjectTypeBlock.java:30-47 | for a name without `$`, deserializing the serialized pair gives the same name and metadata |
| BlockValueType.DeserializedNameFree | src/main/java/org/cyclops/integrateddynamics/core/evaluate/variable/ValueObjectTypeBlock.java:37-42 | a name read from text never contains `$` |
| BlockValueType.DeserializeCanonical | src/main/java/org/cyclops/integrateddynamics/core/evaluate/variable/ValueObjectTypeBlock.java:30-47 | whatever text deserializes, its re-serialized form deserializes to the same block |
| BlockValueType.BadMetaFails | src/main/java/org/cyclops/integrateddynamics/core/evaluate/variable/ValueObjectTypeBlock.java:37-46 | a name, `$` and text that is not an `int` fail with the error naming the input |
| BlockValueType.MissingMetaFails | src/main/java/org/cyclops/integrateddynamics/core/evaluate/variable/ValueObjectTypeBlock.java:37-46 | a name followed by a lone `$` has no metadata piece and fails with the error naming the input |
| BlockValueType.BlockValueEquals | src/main/java/org/cyclops/integrateddynamics/core/evaluate/variable/ValueObjectTypeBlock.java:72-75 | a block value equals another value exactly when the other is a block value with the same block state |
| BlockValueType.BlockValueEqualsEquivalence | src/main/java/org/cyclops/integrateddynamics/core/evaluate/variable/ValueObjectTypeBlock.java:72-75 | block value equality is reflexive, symmetric and transitive |

## Left out

- Evaluation.EvaluateOperator: the Java recursion has no bound on chains of zero-arity operators that return operators. The model gives that path a `fuel` parameter and fails with `RecursionBound` when the fuel is used up. Every other path needs no fuel.
- Evaluation.CurryThenApply: the code of `CurriedOperator` is not part of this model. Its expected behaviour is a hypothesis, `CurriesFaithfully`, and is not derived from code.
- SlashCodecProofs.CompressRoundTrip: proved only for text without `#` and at most `Integer.MAX_VALUE` long. Text that holds the marker can make the transcoder throw (see `HashlessFragmentFails`).
- SlashCodecProofs.CompressIdempotent: proved for the same inputs as the round trip, for the same reason.
- SlashCodec.CompressSlashes: `null` strings are not modelled; strings are never null here. `compressSlashes` is a function over the reference encoding. The loop itself is `SlashCompression.CompressLoop`, split into `CountRun` (the inner loop) and `EmitRun` (one pass of the outer loop, including the if-chain, which is `SlashCodec.RunText`).
- SlashCodec.CompressSlashes: the length test `str.length() < maxValueByteSize / 4` counts Unicode scalar values, not UTF-16 code units. For text with characters outside the Basic Multilingual Plane the model can skip compression where Java compresses.
- SlashCodec.SerializeRaw: the length test `raw.length() >= maxValueByteSize` counts Unicode scalar values, not UTF-16 code units. For text with characters outside the Basic Multilingual Plane the model can keep a string that Java replaces by `TOO LONG`; with a cap of 2 and one emoji, for one, Java writes the sentinel and the model keeps the emoji.
- SlashCodec.UncompressSlashes: `null` strings are not modelled. `String.split` with the marker is modelled as a split on the literal marker: the marker holds no regular-expression metacharacter.
- Character data: `Integer.parseInt` accepts only ASCII digits here, not other Unicode decimal digits. Strings are Dafny strings: sequences of Unicode scalar values, with no normalisation. Java strings are sequences of UTF-16 code units, so a character outside the Basic Multilingual Plane counts 1 in the model's `|s|` and 2 in Java's `length()`.
- `serialize` / `deserialize` to NBT tags, the value-type registry lookup, `getSafeReadableValue`, `validatePredicateOutput` and `from(IValueType...)`: these are NBT, registry, localisation and global-mode plumbing outside the modelled core.
- BlockValueType.Serialize: the conversion between a block state and its (name, metadata) pair by `BlockHelpers` is not part of this model. A block state is identified with its pair. The air default is taken to be the pair `("minecraft:air", 0)`.
- BlockValueType.BlockValueEquals: Java compares block states by reference. The model compares the pairs, which agrees as long as block states are interned, one object per block and metadata.
- BlockValueType.Deserialize: the stack trace printed before rethrowing is not modelled. A failure of `BlockHelpers.deserializeBlockState` on a well-formed pair is outside the model.
- `toCompactString` and `getName`: they only return the block's localised name.
- PartNetworks.GetVariableCache: the Java composite map is a live view on the containers' own maps. The model takes a snapshot of them when the cache is built. A change to a container's variables while the cache stays built is not reflected.
- PartNetworks.OnUpdate: `super.onUpdate()` in the `Network` base class is not part of this model. The `System.out` message of `onPartsChanged` is reduced to the boolean that says it ran. The `volatile` flag's concurrency is not modelled; each operation is one atomic step.
- PartNetworks.RemoveCable: `super.removeCable` is not part of this model. Its answer is a parameter.
- PartNetworks.GetPartState: `TileMultipartTicking.getPartState` and `getPart` are not part of this model. For a container without a part on the requested side they are assumed to return `null` (`Success(None)`), not to throw a state-unavailable exception. In that case `hasPart` is false, and `getPartVariable` is modelled as a null dereference.
- PartNetworks.GetPartType: the same assumption as for `GetPartState`, for the part type on the requested side.
- PartNetworks.GetVariableFacade: `CompositeMap.get` is not part of this model. It is assumed to return the entry of the first added map that has the key (`CompositeGet`), as `containsKey` is assumed to ask every map.
- PartNetworks.HasPartVariable: `PartTarget` is not part of this model. The type reader's lookup takes the `PartPos` itself, because the target `PartTarget.fromCenter` builds is a function of that position. The reader lookups are parameters.
- `initiateNetworkSetup` and `equals`: they depend on the path finder, the world storage singleton and `areNetworksEqual` of the base class, none of which is part of this model.
- The error log line of `getVariableCache` for an invalid position: logging is a side effect.

=== FILE: block_value_type.dfy ===
/** The block value type (`ValueObjectTypeBlock`): its default value, the
    `name$meta` string form of a block state, and the equality of block
    values. A block state is identified with the (registry name, metadata)
    pair the block helpers convert it to and from. */
module BlockValueType {
  import opened Wrappers
  import opened JavaStrings
  import opened Values

  /** The character between the name and the metadata. */
  const Separator: string := "$"

  /** Registry name of the air block. */
  const AirName: string := "minecraft:air"

  /** `deserialize` rethrows every failure as a `RuntimeException` whose
      message names the input. */
  datatype DeserializeError = DeserializeFailed(input: string)

  predicate NoSeparator(s: string) {
    forall i | 0 <= i < |s| :: s[i] != '$'
  }

  /** `getDefault`: the default state of air. */
  function Default(): (b: BlockState)
    ensures b.name == AirName && b.meta == 0
    ensures Deserialize(Serialize(b)) == Success(b)
  {
    var b := BlockState(AirName, 0);
    SerializeRoundTrip(b);
    b
  }

  /** `serialize`: the name, `$`, then the metadata in decimal. */
  function Serialize(b: BlockState): (r: string)
    ensures |r| > |b.name| + 1 && r[..|b.name|] == b.name && r[|b.name|] == '$'
    ensures NoSeparator(r[|b.name| + 1..])
    ensures var t := r[|b.name| + 1..]; AllDigits(if t[0] == '-' then t[1..] else t)
    ensures ParseInt(r[|b.name| + 1..]) == Some(b.meta)
  {
    var digits := IntToString(b.meta);
    IntToStringShape(b.meta);
    ParseIntToString(b.meta);
    var m: int := b.meta;
    NatToDecimalDigits(if m < 0 then -m else m);
    assert m < 0 ==> digits[1..] == NatToDecimal(-m);
    var r := b.name + Separator + digits;
    assert r[|b.name| + 1..] == digits;
    r
  }

  /** `deserialize`: splits on `$` (dropping trailing empty pieces, as
      `String.split` does), takes the first piece as the name and parses the
      second as the metadata. A missing piece or a metadata that is not an
      `int` fails with an error that names the input. */
  function Deserialize(value: string): (r: Result<BlockState, DeserializeError>)
    ensures r.Failure? ==> r.error == DeserializeFailed(value)
    ensures Find(value, Separator).None? ==> r.Failure?
  {
    var parts := Split(value, Separator);
    if |parts| < 2 then Failure(DeserializeFailed(value))
    else
      match ParseInt(parts[1])
      case None => Failure(DeserializeFailed(value))
      case Some(meta) => Success(BlockState(parts[0], meta))
  }

  /** `ValueBlock.equals`: the other value is a block value holding the same
      block state. */
  function BlockValueEquals(a: Value, o: Value): (r: bool)
    requires a.BlockValue?
    ensures r ==> o.Type() == BlockType
    ensures r <==> o == a
  {
    o.BlockValue? && o.state == a.state
  }

  /* ---------------------------------------------------------------------
     The string form
     --------------------------------------------------------------------- */

  /** `Integer.toString` never writes `$`, and never writes nothing. */
  lemma {:induction false} IntToStringShape(n: Int32)
    ensures |IntToString(n)| > 0 && NoSeparator(IntToString(n))
  {
    var m: int := n;
    NatToDecimalDigits(if m < 0 then -m else m);
  }

  /** Text without `$` holds no separator. */
  lemma {:induction false} NoSeparatorNotFound(s: string)
    requires NoSeparator(s)
    ensures Find(s, Separator).None?
  {
    FindSpec(s, Separator);
    if Find(s, Separator).Some? {
      assert false;
    }
  }

  /** The first `$` after a `$`-free name is the one right after it. */
  lemma {:induction false} FirstSeparator(x: string, y: string)
    requires NoSeparator(x)
    ensures Find(x + Separator + y, Separator) == Some(|x|)
  {
    FindAfterPrefix(x, Separator, y);
  }

  /** Splitting `x$y` with `$`-free `x` and non-empty `$`-free `y` gives the
      two pieces back. */
  lemma {:induction false} SplitPair(x: string, y: string)
    requires NoSeparator(x) && NoSeparator(y) && |y| > 0
    ensures Split(x + Separator + y, Separator) == [x, y]
  {
    var s := x + Separator + y;
    FirstSeparator(x, y);
    assert s[..|x|] == x;
    assert s[|x| + |Separator|..] == y;
    NoSeparatorNotFound(y);
    assert LiteralSplit(s, Separator) == [x] + LiteralSplit(y, Separator);
    assert LiteralSplit(s, Separator) == [x, y];
  }

  /** The first piece of a split is the text before the first separator. */
  lemma {:induction false} FirstPieceFree(value: string)
    requires Find(value, Separator).Some?
    ensures NoSeparator(LiteralSplit(value, Separator)[0])
  {
    var i := Find(value, Separator).value;
    FindSpec(value, Separator);
    OccursAtIff(value, Separator, i);
    var head := LiteralSplit(value, Separator)[0];
    assert head == value[..i];
    forall j | 0 <= j < |head|
      ensures head[j] != '$'
    {
      if head[j] == '$' {
        OccursAtIff(value, Separator, j);
        FindFirst(value, Separator, j);
        assert false;
      }
    }
  }

  /* ---------------------------------------------------------------------
     Properties of the codec
     --------------------------------------------------------------------- */

  /** For a name without `$`, deserializing the serialized pair gives the
      same name and metadata back. */
  lemma {:induction false} SerializeRoundTrip(b: BlockState)
    requires NoSeparator(b.name)
    ensures Deserialize(Serialize(b)) == Success(b)
  {
    var digits := IntToString(b.meta);
    IntToStringShape(b.meta);
    SplitPair(b.name, digits);
    ParseIntToString(b.meta);
  }

  /** A deserialized name never contains `$`. */
  lemma {:induction false} DeserializedNameFree(value: string)
    requires Deserialize(value).Success?
    ensures NoSeparator(Deserialize(value).value.name)
  {
    var parts := Split(value, Separator);
    assert |parts| >= 2;
    FirstPieceFree(value);
  }

  /** So every value that deserializes is read the same way from its
      re-serialized form: serialization is canonical. */
  lemma {:induction false} DeserializeCanonical(value: string)
    requires Deserialize(value).Success?
    ensures Deserialize(Serialize(Deserialize(value).value)) == Deserialize(value)
  {
    DeserializedNameFree(value);
    SerializeRoundTrip(Deserialize(value).value);
  }

  /** A name followed by `$` and text that is not an `int` fails, naming the
      whole input. */
  lemma {:induction false} BadMetaFails(name: string, meta: string)
    requires NoSeparator(name) && NoSeparator(meta) && |meta| > 0
    requires ParseInt(meta).None?
    ensures Deserialize(name + Separator + meta) == Failure(DeserializeFailed(name + Separator + meta))
  {
    SplitPair(name, meta);
  }

  /** A name followed by a lone `$` has no metadata piece and fails. */
  lemma {:induction false} MissingMetaFails(name: string)
    requires NoSeparator(name)
    ensures Deserialize(name + Separator) == Failure(DeserializeFailed(name + Separator))
  {
    var s := name + Separator;
    FirstSeparator(name, []);
    assert s + [] == s;
    assert s[|name| + |Separator|..] == [];
    assert LiteralSplit([], Separator) == [[]];
    assert LiteralSplit(s, Separator) == [name, []];
  }

  /** Block value equality is an equivalence. */
  lemma {:induction false} BlockValueEqualsEquivalence(a: Value, b: Value, c: Value)
    requires a.BlockValue? && b.BlockValue? && c.BlockValue?
    ensures BlockValueEquals(a, a)
    ensures BlockValueEquals(a, b) == BlockValueEquals(b, a)
    ensures BlockValueEquals(a, b) && BlockValueEquals(b, c) ==> BlockValueEquals(a, c)
  {
  }
}

=== FILE: evaluation.dfy ===
/** `ValueHelpers.evaluateOperator`: applying an operator to a list of
    variables, reconciling the list's length with the operator's arity by
    currying (too few) or by chaining into the operator it returns (too many). */
module Evaluation {
  import opened Wrappers
  import opened Values

  datatype EvalError =
      /** Raised by an operator's own evaluation and passed through unchanged. */
    | OperatorFailure(message: string)
      /** `OPERATOR_ERROR_CURRYINGOVERFLOW`: too many inputs, and the operator
          applied to its share did not produce an operator to pass the rest to. */
    | CurryingOverflow(operatorKey: string, requiredLength: nat, given: nat, resultType: ValueType)
      /** The model's bound on chains of zero-arity operators, which consume no
          input and would otherwise recurse without end. */
    | RecursionBound

  /** What the operators themselves do, which the evaluation engine only calls:
      `getRequiredInputLength`, `evaluate` and `getTranslationKey`, for
      primitive and curried operators alike. */
  datatype Semantics = Semantics(
    requiredInputLength: Operator -> nat,
    evaluate: (Operator, seq<Variable>) -> Result<Value, EvalError>,
    translationKey: Operator -> string)

  /** `evaluateOperator(operator, variables...)` with `n` the operator's
      arity and `k` the number of variables:
      - `k == n`: the operator's own result, errors included;
      - `k > n`: the operator gets the first `n` variables; its result must be
        an operator, which then gets the remaining `k - n`;
      - `k < n`: nothing is evaluated; the result wraps a `CurriedOperator`
        binding the given variables in order.
      `fuel` bounds only the overflow steps through zero-arity operators, the
      one path on which the argument list does not shrink. */
  function EvaluateOperator(sem: Semantics, op: Operator, variables: seq<Variable>, fuel: nat): (r: Result<Value, EvalError>)
    ensures |variables| == sem.requiredInputLength(op) ==> r == sem.evaluate(op, variables)
    ensures |variables| < sem.requiredInputLength(op) ==> r == Success(OperatorValue(Curried(op, variables)))
    ensures |variables| > sem.requiredInputLength(op) && sem.evaluate(op, variables[..sem.requiredInputLength(op)]).Failure?
      ==> r == sem.evaluate(op, variables[..sem.requiredInputLength(op)])
    ensures |variables| > sem.requiredInputLength(op) && sem.evaluate(op, variables[..sem.requiredInputLength(op)]).Success?
      && sem.evaluate(op, variables[..sem.requiredInputLength(op)]).value.Type() != OperatorType
      ==> r == Failure(CurryingOverflow(sem.translationKey(op), sem.requiredInputLength(op), |variables|,
                                         sem.evaluate(op, variables[..sem.requiredInputLength(op)]).value.Type()))
    decreases |variables|, fuel
  {
    var requiredLength := sem.requiredInputLength(op);
    if requiredLength == |variables| then
      sem.evaluate(op, variables)
    else if |variables| > requiredLength then
      var acceptable := variables[..requiredLength];
      var remaining := variables[requiredLength..];
      var result :- EvaluateOperator(sem, op, acceptable, fuel);
      if result.Type() != OperatorType then
        Failure(CurryingOverflow(sem.translationKey(op), requiredLength, |variables|, result.Type()))
      else if requiredLength == 0 && fuel == 0 then
        Failure(RecursionBound)
      else
        EvaluateOperator(sem, result.op, remaining, if requiredLength == 0 then fuel - 1 else fuel)
    else
      Success(OperatorValue(Curried(op, variables)))
  }

  /** Left-to-right chaining: when an operator given exactly its own inputs
      `a` returns an operator `next`, evaluating it on `a + b` is evaluating
      `next` on `b`; every input is consumed once, in order. */
  lemma {:induction false} OverflowChains(sem: Semantics, op: Operator, next: Operator, a: seq<Variable>, b: seq<Variable>, fuel: nat)
    requires |a| == sem.requiredInputLength(op) >= 1
    requires |b| > 0
    requires sem.evaluate(op, a) == Success(OperatorValue(next))
    ensures EvaluateOperator(sem, op, a + b, fuel) == EvaluateOperator(sem, next, b, fuel)
  {
    assert (a + b)[..|a|] == a;
    assert (a + b)[|a|..] == b;
  }

  /** A zero-arity operator given inputs is applied to none of them and its
      result receives them all, at the cost of one unit of fuel. */
  lemma {:induction false} ZeroArityForwardsAll(sem: Semantics, op: Operator, next: Operator, variables: seq<Variable>, fuel: nat)
    requires sem.requiredInputLength(op) == 0
    requires |variables| > 0
    requires sem.evaluate(op, []) == Success(OperatorValue(next))
    ensures fuel == 0 ==> EvaluateOperator(sem, op, variables, fuel) == Failure(RecursionBound)
    ensures fuel > 0 ==> EvaluateOperator(sem, op, variables, fuel) == EvaluateOperator(sem, next, variables, fuel - 1)
  {
    assert variables[..0] == [];
    assert variables[0..] == variables;
  }

  /** What `CurriedOperator` is expected to do (its code is not part of this
      model): its arity is what remains of the base operator's, and given the
      rest it evaluates the base on the bound inputs followed by the rest. */
  ghost predicate CurriesFaithfully(sem: Semantics, op: Operator, bound: seq<Variable>)
  {
    && sem.requiredInputLength(Curried(op, bound)) + |bound| == sem.requiredInputLength(op)
    && forall rest: seq<Variable> | |bound| + |rest| == sem.requiredInputLength(op) ::
         sem.evaluate(Curried(op, bound), rest) == sem.evaluate(op, bound + rest)
  }

  /** Currying correctness: evaluating with too few inputs yields an operator,
      and giving it the missing inputs agrees with giving all of them at once. */
  lemma {:induction false} CurryThenApply(sem: Semantics, op: Operator, bound: seq<Variable>, rest: seq<Variable>, fuel: nat)
    requires |bound| < sem.requiredInputLength(op)
    requires |bound| + |rest| == sem.requiredInputLength(op)
    requires CurriesFaithfully(sem, op, bound)
    ensures EvaluateOperator(sem, op, bound, fuel) == Success(OperatorValue(Curried(op, bound)))
    ensures EvaluateOperator(sem, Curried(op, bound), rest, fuel) == EvaluateOperator(sem, op, bound + rest, fuel)
  {
  }

  /** The overflow error of an arity-1 operator given two inputs whose result
      is not an operator names the operator, arity 1 and count 2. */
  lemma {:induction false} OverflowErrorNamesArity(sem: Semantics, op: Operator, x: Variable, y: Variable, fuel: nat)
    requires sem.requiredInputLength(op) == 1
    requires sem.evaluate(op, [x]).Success? && !sem.evaluate(op, [x]).value.OperatorValue?
    ensures EvaluateOperator(sem, op, [x, y], fuel)
         == Failure(CurryingOverflow(sem.translationKey(op), 1, 2, sem.evaluate(op, [x]).value.Type()))
  {
    assert [x, y][..1] == [x];
  }

  /** `Constants(values)`: each value wrapped as a constant variable. */
  function Constants(values: seq<Value>): (vars: seq<Variable>)
    ensures |vars| == |values|
    ensures forall i | 0 <= i < |values| :: vars[i] == Constant(values[i])
  {
    seq(|values|, i requires 0 <= i < |values| => Constant(values[i]))
  }

  /** `evaluateOperator(operator, values...)`: wraps every value in a variable
      of the value's own type, in order, and evaluates on those. */
  method EvaluateOperatorOnValues(sem: Semantics, op: Operator, values: seq<Value>, fuel: nat) returns (r: Result<Value, EvalError>)
    ensures r == EvaluateOperator(sem, op, Constants(values), fuel)
  {
    var variables: seq<Variable> := [];
    var i := 0;
    while i < |values|
      invariant 0 <= i <= |values|
      invariant variables == Constants(values[..i])
    {
      variables := variables + [Constant(values[i])];
      i := i + 1;
    }
    assert values[..|values|] == values;
    r := EvaluateOperator(sem, op, variables, fuel);
  }
}

=== FILE: java_strings.dfy ===
/** The few Java `int` and `String` primitives the modelled code relies on:
    32-bit integers, `Integer.toString`, `Integer.parseInt`, `String.indexOf`,
    `String.split` with a separator that matches literally, and
    `StringUtils.repeat`. Strings are sequences of Unicode scalar values;
    Java's UTF-16 `length()` can differ. */
module JavaStrings {
  import opened Wrappers

  const MinInt: int := -0x8000_0000
  const MaxInt: int := 0x7fff_ffff

  /** A Java `int`. */
  type Int32 = x: int | MinInt <= x <= MaxInt

  /** Two's-complement wrap-around of a mathematical integer into a Java `int`. */
  function Wrap(x: int): (r: Int32)
    ensures MinInt <= x <= MaxInt ==> r == x
    ensures (r - x) % 0x1_0000_0000 == 0
  {
    (x - MinInt) % 0x1_0000_0000 + MinInt
  }

  /** Java `a + b` on `int`, which wraps on overflow. */
  function AddInt32(a: Int32, b: Int32): Int32 {
    Wrap(a + b)
  }

  /** Java `a / b` for a positive divisor: the quotient truncates toward zero
      (Dafny's own `/` rounds toward negative infinity for a negative `a`). */
  function TruncDiv(a: int, b: int): (q: int)
    requires b > 0
    ensures 0 <= a ==> 0 <= a - q * b < b
    ensures a < 0 ==> -b < a - q * b <= 0
  {
    if a >= 0 then a / b else -((-a) / b)
  }

  predicate IsDigit(c: char) {
    '0' <= c <= '9'
  }

  predicate AllDigits(s: string) {
    forall i | 0 <= i < |s| :: IsDigit(s[i])
  }

  function DigitChar(d: nat): (c: char)
    requires d < 10
    ensures IsDigit(c) && c as int - '0' as int == d
  {
    ('0' as int + d) as char
  }

  /** The number a string of decimal digits denotes. */
  function DigitsValue(s: string): nat
    requires AllDigits(s)
    decreases |s|
  {
    if |s| == 0 then 0 else DigitsValue(s[..|s| - 1]) * 10 + (s[|s| - 1] as int - '0' as int)
  }

  /** `Integer.toString(n)` for `n >= 0`: decimal digits, most significant first. */
  function NatToDecimal(n: nat): string {
    if n < 10 then [DigitChar(n)] else NatToDecimal(n / 10) + [DigitChar(n % 10)]
  }

  /** The rendering is a non-empty digit string without leading zeros that
      denotes `n`. */
  lemma {:induction false} NatToDecimalDigits(n: nat)
    ensures var r := NatToDecimal(n);
      && |r| > 0 && AllDigits(r)
      && DigitsValue(r) == n
      && (|r| > 1 ==> r[0] != '0')
  {
    if n >= 10 {
      NatToDecimalDigits(n / 10);
      var prefix := NatToDecimal(n / 10);
      var r := NatToDecimal(n);
      assert r[..|r| - 1] == prefix;
    }
  }

  /** `Integer.toString(n)`, which also renders `String.valueOf(n)` and `"" + n`. */
  function IntToString(n: int): string {
    if n < 0 then "-" + NatToDecimal(-n) else NatToDecimal(n)
  }

  /** `Integer.parseInt(s)`: an optional sign followed by at least one decimal digit,
      denoting a value in the `int` range; `None` where Java throws
      `NumberFormatException`. */
  function ParseInt(s: string): (r: Option<Int32>)
    ensures |s| == 0 ==> r.None?
    ensures r.Some? ==> s[0] == '-' || s[0] == '+' || IsDigit(s[0])
    ensures |s| > 0 && AllDigits(s) && DigitsValue(s) <= MaxInt ==> r == Some(DigitsValue(s))
  {
    if |s| == 0 then None
    else
      var digits := if s[0] == '-' || s[0] == '+' then s[1..] else s;
      if |digits| == 0 || !AllDigits(digits) then None
      else
        var magnitude: int := DigitsValue(digits);
        var v := if s[0] == '-' then -magnitude else magnitude;
        if MinInt <= v <= MaxInt then Some(v) else None
  }

  /** `Integer.parseInt` inverts `Integer.toString` on every `int`. */
  lemma {:induction false} ParseIntToString(n: Int32)
    ensures ParseInt(IntToString(n)) == Some(n)
  {
    var m: int := n;
    var d := NatToDecimal(if m < 0 then -m else m);
    NatToDecimalDigits(if m < 0 then -m else m);
    if n < 0 {
      assert IntToString(n)[1..] == d;
    } else {
      assert IntToString(n) == d;
    }
  }

  /** `StringUtils.repeat(s, times)`: empty for a non-positive count. */
  function Repeat(s: string, times: int): (r: string)
    ensures times <= 0 ==> r == []
    decreases times
  {
    if times <= 0 then [] else s + Repeat(s, times - 1)
  }

  /** Repeating a one-character string gives that character `n` times. */
  lemma {:induction false} RepeatChar(c: char, n: nat)
    ensures |Repeat([c], n)| == n
    ensures forall i | 0 <= i < n :: Repeat([c], n)[i] == c
  {
    if n > 0 {
      RepeatChar(c, n - 1);
    }
  }

  /** `s.indexOf(c, from)`: the first index at or after `from` holding `c`. */
  function IndexOfChar(s: string, c: char, from: nat): (r: Option<nat>)
    ensures r.Some? ==> from <= r.value < |s| && s[r.value] == c
    ensures r.Some? ==> forall j | from <= j < r.value :: s[j] != c
    ensures r.None? ==> forall j | from <= j < |s| :: s[j] != c
    decreases |s| - from
  {
    if from >= |s| then None
    else if s[from] == c then Some(from)
    else IndexOfChar(s, c, from + 1)
  }

  /** `pat` occurs in `s` starting at index `i`. */
  predicate OccursAt(s: string, pat: string, i: int) {
    0 <= i && i + |pat| <= |s| && MatchesFrom(s, pat, i, 0)
  }

  /** The characters of `pat` from index `k` on appear in `s` from `i + k` on. */
  predicate MatchesFrom(s: string, pat: string, i: nat, k: nat)
    requires i + |pat| <= |s|
    decreases |s| - (i + k)
  {
    k >= |pat| || (s[i + k] == pat[k] && MatchesFrom(s, pat, i, k + 1))
  }

  lemma {:induction false} MatchesFromIff(s: string, pat: string, i: nat, k: nat)
    requires i + |pat| <= |s|
    ensures MatchesFrom(s, pat, i, k) <==> forall j | k <= j < |pat| :: s[i + j] == pat[j]
    decreases |s| - (i + k)
  {
    if k < |pat| {
      MatchesFromIff(s, pat, i, k + 1);
    }
  }

  /** `OccursAt` character by character. */
  lemma {:induction false} OccursAtIff(s: string, pat: string, i: int)
    ensures OccursAt(s, pat, i) <==>
      0 <= i && i + |pat| <= |s| && forall k | 0 <= k < |pat| :: s[i + k] == pat[k]
  {
    if 0 <= i && i + |pat| <= |s| {
      MatchesFromIff(s, pat, i, 0);
    }
  }

  /** An occurrence is a slice equal to the pattern. */
  lemma {:induction false} OccursAtSlice(s: string, pat: string, i: int)
    requires OccursAt(s, pat, i)
    ensures 0 <= i && i + |pat| <= |s| && s[i..i + |pat|] == pat
  {
    OccursAtIff(s, pat, i);
  }

  /** The leftmost occurrence of a non-empty pattern; `FindSpec` and
      `FindFirst` below state what it finds. */
  function Find(s: string, pat: string): Option<nat>
    requires |pat| > 0
    decreases |s|
  {
    if |s| < |pat| then None
    else if OccursAt(s, pat, 0) then Some(0)
    else
      match Find(s[1..], pat)
      case None => None
      case Some(i) => Some(i + 1)
  }

  /** No occurrence starts at a character other than the pattern's first. */
  lemma {:induction false} NoOccurrenceAt(s: string, pat: string, i: int)
    requires |pat| > 0 && 0 <= i < |s| && s[i] != pat[0]
    ensures !OccursAt(s, pat, i)
  {
    OccursAtIff(s, pat, i);
  }

  /** The pattern right after text that never holds its first character is
      the first occurrence. */
  lemma {:induction false} FindAfterPrefix(x: string, pat: string, y: string)
    requires |pat| > 0 && forall i | 0 <= i < |x| :: x[i] != pat[0]
    ensures Find(x + pat + y, pat) == Some(|x|)
  {
    var s := x + pat + y;
    forall k | 0 <= k < |pat|
      ensures s[|x| + k] == pat[k]
    {
    }
    OccursAtIff(s, pat, |x|);
    FindFirst(s, pat, |x|);
    FindSpec(s, pat);
    forall i | 0 <= i < |x|
      ensures !OccursAt(s, pat, i)
    {
      NoOccurrenceAt(s, pat, i);
    }
  }

  /** An occurrence at `j >= 1` is an occurrence at `j - 1` in the tail. */
  lemma {:induction false} OccursInTail(s: string, pat: string, j: int)
    requires 1 <= j && |s| > 0
    ensures OccursAt(s, pat, j) <==> OccursAt(s[1..], pat, j - 1)
  {
    OccursAtIff(s, pat, j);
    OccursAtIff(s[1..], pat, j - 1);
    assert forall k | 0 <= k < |s| - 1 :: s[1..][k] == s[k + 1];
  }

  /** What `Find` reports is an occurrence. */
  lemma {:induction false} FindSpec(s: string, pat: string)
    requires |pat| > 0
    ensures Find(s, pat).Some? ==> OccursAt(s, pat, Find(s, pat).value)
    decreases |s|
  {
    if |s| >= |pat| && !OccursAt(s, pat, 0) {
      FindSpec(s[1..], pat);
      if Find(s[1..], pat).Some? {
        OccursInTail(s, pat, Find(s[1..], pat).value + 1);
      }
    }
  }

  /** Every occurrence is found, at or after the reported one: `Find` is
      `None` only when the pattern does not occur, and otherwise reports the
      leftmost occurrence. */
  lemma {:induction false} FindFirst(s: string, pat: string, j: int)
    requires |pat| > 0 && OccursAt(s, pat, j)
    ensures Find(s, pat).Some? && Find(s, pat).value <= j
    decreases |s|
  {
    if !OccursAt(s, pat, 0) {
      OccursInTail(s, pat, j);
      FindFirst(s[1..], pat, j - 1);
    }
  }

  /** Cuts `s` at every leftmost, non-overlapping occurrence of `sep`. */
  function LiteralSplit(s: string, sep: string): (r: seq<string>)
    requires |sep| > 0
    ensures |r| >= 1
    ensures Find(s, sep).None? <==> |r| == 1
    ensures Find(s, sep).None? ==> r == [s]
    decreases |s|
  {
    match Find(s, sep)
    case None => [s]
    case Some(i) =>
      FindSpec(s, sep);
      [s[..i]] + LiteralSplit(s[i + |sep|..], sep)
  }

  /** Glues parts back together with `sep` between neighbours. */
  function Join(parts: seq<string>, sep: string): string
    requires |parts| >= 1
  {
    if |parts| == 1 then parts[0] else parts[0] + sep + Join(parts[1..], sep)
  }

  /** Splitting loses nothing: the parts and separators spell the input again. */
  lemma {:induction false} JoinLiteralSplit(s: string, sep: string)
    requires |sep| > 0
    ensures Join(LiteralSplit(s, sep), sep) == s
    decreases |s|
  {
    match Find(s, sep)
    case None =>
    case Some(i) =>
      FindSpec(s, sep);
      OccursAtSlice(s, sep, i);
      var rest := s[i + |sep|..];
      JoinLiteralSplit(rest, sep);
      JoinCons(s[..i], LiteralSplit(rest, sep), sep);
      Reassemble(s, i, i + |sep|);
  }

  lemma {:induction false} JoinCons(head: string, tail: seq<string>, sep: string)
    requires |tail| >= 1
    ensures Join([head] + tail, sep) == head + sep + Join(tail, sep)
  {
    assert ([head] + tail)[1..] == tail;
  }

  lemma {:induction false} Reassemble(s: string, i: nat, k: nat)
    requires i <= k <= |s|
    ensures s[..i] + s[i..k] + s[k..] == s
  {
  }

  /** A string is what comes before index `i`, the character there, and
      what comes after. */
  lemma {:induction false} CutAround(s: string, i: nat)
    requires i < |s|
    ensures s == s[..i] + ([s[i]] + s[i + 1..])
  {
  }

  lemma {:induction false} AppendAssoc(a: string, b: string, c: string)
    ensures (a + b) + c == a + (b + c)
  {
  }

  /** Removes the trailing empty strings of a split, as `String.split` does. */
  function DropTrailingEmpty(parts: seq<string>): (r: seq<string>)
    ensures |r| <= |parts| && r == parts[..|r|]
    ensures |r| > 0 ==> r[|r| - 1] != []
    ensures forall k | |r| <= k < |parts| :: parts[k] == []
  {
    if |parts| == 0 || parts[|parts| - 1] != [] then parts
    else DropTrailingEmpty(parts[..|parts| - 1])
  }

  /** `s.split(regex)` for a regex that matches exactly the literal `sep`:
      the whole string when `sep` does not occur, otherwise the pieces with
      trailing empty strings removed (possibly none left at all). */
  function Split(s: string, sep: string): (r: seq<string>)
    requires |sep| > 0
    ensures Find(s, sep).None? ==> r == [s]
    ensures Find(s, sep).Some? ==> r == DropTrailingEmpty(LiteralSplit(s, sep))
  {
    var parts := LiteralSplit(s, sep);
    if |parts| == 1 then parts else DropTrailingEmpty(parts)
  }
}

=== FILE: part_network.dfy ===
/** `PartNetwork`: the bookkeeping a network of cables keeps about the parts
    on it, the variable containers it can read variables from, the composite
    view over those containers, and the values evaluated during one tick.

    The network is an immutable record and every operation a function from
    the record before to the record after. The world the network looks into
    is a parameter, because the network only holds positions into it. */
module PartNetworks {
  import opened Wrappers
  import opened Values

  /** A block position in a dimension. */
  datatype DimPos = DimPos(dimension: int, x: int, y: int, z: int)

  datatype Side = Down | Up | North | South | West | East

  /** Where a part sits: the block position and the side of the block. */
  datatype PartPos = PartPos(pos: DimPos, side: Side)

  /** A part's state; `reader` tells whether it is an `IPartStateReader`. */
  datatype PartState = PartState(reader: bool, stateId: int)

  /** A part's type; `reader` tells whether it is an `IPartTypeReader`. */
  datatype PartType = PartType(reader: bool, key: string)

  datatype Part = Part(state: PartState, partType: PartType)

  /** The parts in one block, by side. */
  datatype PartContainer = PartContainer(parts: map<Side, Part>)

  /** A read aspect, known by its key. */
  datatype Aspect = Aspect(key: string)

  /** What the network can see of the world: the part containers by position
      (`TileMultipartTicking.get`, absent where it gives `null`) and, for
      every block that is a variable container, the variables it holds by
      id. */
  datatype World = World(
    containers: map<DimPos, PartContainer>,
    variableContainers: map<DimPos, map<int, VariableFacade>>)

  /** The variable lookup of part types and part states, which the network
      only calls: `IPartTypeReader.getVariable(target, state, aspect)` and
      `IPartStateReader.getVariable(aspect)`, with `None` for `null`. */
  datatype Readers = Readers(
    typeVariable: (PartType, PartPos, PartState, Aspect) -> Option<Variable>,
    stateVariable: (PartState, Aspect) -> Option<Variable>)

  /** `compositeVariableCache`: `null` until it is built, then the variable
      maps of the valid containers, in the order of their positions. */
  datatype VariableCache = Unbuilt | Built(elements: seq<map<int, VariableFacade>>)

  datatype PartNetwork = PartNetwork(
    partPositions: map<int, PartPos>,
    variableContainerPositions: seq<DimPos>,
    compositeVariableCache: VariableCache,
    lazyExpressionValueCache: map<int, Value>,
    partsChanged: bool)

  /** The exceptions `getPartVariable` can throw: a `NullPointerException`
      for a missing part, container or state, and a `ClassCastException` for
      a state that is not a reader. */
  datatype NetworkError = NullPointer | ClassCast

  /** A network as the constructors leave it. */
  function Empty(): (n: PartNetwork)
    ensures n.partPositions == map[] && n.variableContainerPositions == []
    ensures n.compositeVariableCache.Unbuilt? && n.lazyExpressionValueCache == map[]
    ensures !n.partsChanged
    ensures forall id :: !HasValue(n, id)
    ensures forall world: World, id :: !HasPart(n, world, id)
  {
    PartNetwork(map[], [], Unbuilt, map[], false)
  }

  /* ---------------------------------------------------------------------
     Parts
     --------------------------------------------------------------------- */

  /** `addPart`: registers the position of a new id and reports success; an
      id that is already known keeps its position and the call fails. */
  function AddPart(n: PartNetwork, partId: int, partPos: PartPos): (r: (PartNetwork, bool))
    ensures r.1 <==> partId !in n.partPositions
    ensures !r.1 ==> r.0 == n
    ensures r.1 ==> partId in r.0.partPositions && r.0.partPositions[partId] == partPos
    ensures r.0.partPositions.Keys == n.partPositions.Keys + {partId}
    ensures forall id | id in n.partPositions :: r.0.partPositions[id] == n.partPositions[id]
    ensures r.0.(partPositions := n.partPositions) == n
  {
    if partId in n.partPositions then (n, false)
    else (n.(partPositions := n.partPositions[partId := partPos]), true)
  }

  /** `removePart`: forgets one id; an unknown id is ignored. */
  function RemovePart(n: PartNetwork, partId: int): (r: PartNetwork)
    ensures partId !in r.partPositions
    ensures r.partPositions.Keys == n.partPositions.Keys - {partId}
    ensures forall id | id in r.partPositions :: r.partPositions[id] == n.partPositions[id]
    ensures partId !in n.partPositions ==> r == n
    ensures r.(partPositions := n.partPositions) == n
  {
    n.(partPositions := n.partPositions - {partId})
  }

  /** Adding a new id and removing it again restores the network. */
  lemma {:induction false} AddRemovePart(n: PartNetwork, partId: int, partPos: PartPos)
    requires partId !in n.partPositions
    ensures RemovePart(AddPart(n, partId, partPos).0, partId) == n
  {
    assert (n.partPositions[partId := partPos] - {partId}) == n.partPositions;
  }

  /** Removing twice is removing once. */
  lemma {:induction false} RemovePartIdempotent(n: PartNetwork, partId: int)
    ensures RemovePart(RemovePart(n, partId), partId) == RemovePart(n, partId)
  {
  }

  /** The part at a position, if a container is there and holds a part on
      that side. */
  function PartAt(world: World, partPos: PartPos): (r: Option<Part>)
    ensures r.Some? <==> partPos.pos in world.containers && partPos.side in world.containers[partPos.pos].parts
  {
    if partPos.pos in world.containers && partPos.side in world.containers[partPos.pos].parts
    then Some(world.containers[partPos.pos].parts[partPos.side])
    else None
  }

  /** `hasPart`: the id is known, a container exists at its position, and
      the container has a part on its side. The map itself is only read, so
      an id whose part has gone stays registered. */
  function HasPart(n: PartNetwork, world: World, partId: int): (r: bool)
    ensures partId !in n.partPositions ==> !r
    ensures r <==> (&& partId in n.partPositions
                    && n.partPositions[partId].pos in world.containers
                    && n.partPositions[partId].side in world.containers[n.partPositions[partId].pos].parts)
  {
    partId in n.partPositions && PartAt(world, n.partPositions[partId]).Some?
  }

  /** `getPartState`: the state of the part on the registered side. An
      unknown id or a position without a container is a null dereference;
      a container without a part on that side gives `null` (`None`). */
  function GetPartState(n: PartNetwork, world: World, partId: int): (r: Result<Option<PartState>, NetworkError>)
    ensures r.Failure? <==> partId !in n.partPositions || n.partPositions[partId].pos !in world.containers
    ensures r.Failure? ==> r.error == NullPointer
    ensures r.Success? && r.value.Some? <==> HasPart(n, world, partId)
    ensures HasPart(n, world, partId) ==>
      r.value.value == world.containers[n.partPositions[partId].pos].parts[n.partPositions[partId].side].state
  {
    if partId !in n.partPositions || n.partPositions[partId].pos !in world.containers then Failure(NullPointer)
    else
      match PartAt(world, n.partPositions[partId])
      case None => Success(None)
      case Some(part) => Success(Some(part.state))
  }

  /** `getPartType`: the type of the part on the registered side, with the
      same null dereference and `null` result as `getPartState`. */
  function GetPartType(n: PartNetwork, world: World, partId: int): (r: Result<Option<PartType>, NetworkError>)
    ensures r.Failure? <==> partId !in n.partPositions || n.partPositions[partId].pos !in world.containers
    ensures r.Failure? ==> r.error == NullPointer
    ensures r.Success? && r.value.Some? <==> HasPart(n, world, partId)
    ensures HasPart(n, world, partId) ==>
      r.value.value == world.containers[n.partPositions[partId].pos].parts[n.partPositions[partId].side].partType
  {
    if partId !in n.partPositions || n.partPositions[partId].pos !in world.containers then Failure(NullPointer)
    else
      match PartAt(world, n.partPositions[partId])
      case None => Success(None)
      case Some(part) => Success(Some(part.partType))
  }

  /** `hasPartVariable`: the part exists, its state and its type are
      readers, and the type gives a variable for the aspect at the part's
      position. */
  function HasPartVariable(n: PartNetwork, world: World, readers: Readers, partId: int, aspect: Aspect): (r: bool)
    ensures !HasPart(n, world, partId) ==> !r
    ensures r <==> (&& HasPart(n, world, partId)
                    && GetPartState(n, world, partId).value.value.reader
                    && GetPartType(n, world, partId).value.value.reader
                    && readers.typeVariable(GetPartType(n, world, partId).value.value, n.partPositions[partId],
                                            GetPartState(n, world, partId).value.value, aspect).Some?)
  {
    if !HasPart(n, world, partId) then false
    else
      var state := GetPartState(n, world, partId).value.value;
      if !state.reader then false
      else
        var partType := GetPartType(n, world, partId).value.value;
        if !partType.reader then false
        else readers.typeVariable(partType, n.partPositions[partId], state, aspect).Some?
  }

  /** `getPartVariable`: the reader state's variable for the aspect, without
      the checks of `hasPartVariable`. A failing `getPartState` and a `null`
      state are both null dereferences (casting `null` succeeds); a state
      that is not a reader fails the cast. */
  function GetPartVariable(n: PartNetwork, world: World, readers: Readers, partId: int, aspect: Aspect): (r: Result<Option<Variable>, NetworkError>)
    ensures !HasPart(n, world, partId) ==> r == Failure(NullPointer)
    ensures HasPart(n, world, partId) && !GetPartState(n, world, partId).value.value.reader ==> r == Failure(ClassCast)
    ensures r.Success? ==> r.value == readers.stateVariable(GetPartState(n, world, partId).value.value, aspect)
    ensures HasPart(n, world, partId) && GetPartState(n, world, partId).value.value.reader ==>
      r == Success(readers.stateVariable(GetPartState(n, world, partId).value.value, aspect))
  {
    match GetPartState(n, world, partId)
    case Failure(e) => Failure(e)
    case Success(None) => Failure(NullPointer)
    case Success(Some(state)) =>
      if !state.reader then Failure(ClassCast) else Success(readers.stateVariable(state, aspect))
  }

  /** Whenever `hasPartVariable` holds, `getPartVariable` does not throw:
      the part is there and its state is a reader. The variable itself is
      the state's, which need not be the one the type offered. */
  lemma {:induction false} PartVariableAvailable(n: PartNetwork, world: World, readers: Readers, partId: int, aspect: Aspect)
    ensures HasPartVariable(n, world, readers, partId, aspect) ==>
      GetPartVariable(n, world, readers, partId, aspect).Success?
    ensures GetPartVariable(n, world, readers, partId, aspect).Success? ==> HasPart(n, world, partId)
  {
  }

  /** A removed part is gone for `hasPart` and `hasPartVariable`, whatever
      the world holds. */
  lemma {:induction false} RemovedPartIsGone(n: PartNetwork, world: World, readers: Readers, partId: int, aspect: Aspect)
    ensures !HasPart(RemovePart(n, partId), world, partId)
    ensures !HasPartVariable(RemovePart(n, partId), world, readers, partId, aspect)
  {
  }

  /** A newly added part is present exactly when the world has a part at its
      position. */
  lemma {:induction false} AddedPartPresence(n: PartNetwork, world: World, partId: int, partPos: PartPos)
    requires partId !in n.partPositions
    ensures HasPart(AddPart(n, partId, partPos).0, world, partId) <==> PartAt(world, partPos).Some?
  {
  }

  /* ---------------------------------------------------------------------
     Variable containers and the composite cache
     --------------------------------------------------------------------- */

  /** Reference definition of the positions that survive a rebuild: the
      variable containers, in their original order. */
  function ValidPositions(world: World, positions: seq<DimPos>): (r: seq<DimPos>)
    ensures |r| <= |positions|
    ensures forall k | 0 <= k < |r| :: r[k] in world.variableContainers
  {
    if |positions| == 0 then []
    else
      var rest := ValidPositions(world, positions[..|positions| - 1]);
      var last := positions[|positions| - 1];
      if last in world.variableContainers then rest + [last] else rest
  }

  /** A position survives exactly when it was there and is a variable
      container. */
  lemma {:induction false} ValidPositionsMembers(world: World, positions: seq<DimPos>, p: DimPos)
    ensures p in ValidPositions(world, positions) <==> p in positions && p in world.variableContainers
  {
    if |positions| > 0 {
      var init := positions[..|positions| - 1];
      ValidPositionsMembers(world, init, p);
      assert positions == init + [positions[|positions| - 1]];
    }
  }

  /** Filtering distributes over concatenation, so the survivors keep their
      relative order. */
  lemma {:induction false} ValidPositionsAppend(world: World, a: seq<DimPos>, b: seq<DimPos>)
    ensures ValidPositions(world, a + b) == ValidPositions(world, a) + ValidPositions(world, b)
    decreases |b|
  {
    if |b| == 0 {
      assert a + b == a;
    } else {
      var init := b[..|b| - 1];
      assert (a + b)[..|a + b| - 1] == a + init;
      ValidPositionsAppend(world, a, init);
    }
  }

  /** Positions that are all valid are all kept. */
  lemma {:induction false} ValidPositionsAllValid(world: World, positions: seq<DimPos>)
    requires forall k | 0 <= k < |positions| :: positions[k] in world.variableContainers
    ensures ValidPositions(world, positions) == positions
  {
    if |positions| > 0 {
      var init := positions[..|positions| - 1];
      ValidPositionsAllValid(world, init);
      assert positions == init + [positions[|positions| - 1]];
    }
  }

  /** The variable maps of valid containers, in order. */
  function ContainerMaps(world: World, positions: seq<DimPos>): (r: seq<map<int, VariableFacade>>)
    requires forall k | 0 <= k < |positions| :: positions[k] in world.variableContainers
    ensures |r| == |positions|
    ensures forall k | 0 <= k < |positions| :: r[k] == world.variableContainers[positions[k]]
  {
    seq(|positions|, k requires 0 <= k < |positions| => world.variableContainers[positions[k]])
  }

  /** The rebuild loop of `getVariableCache`: walks the positions, adds the
      variable map of every valid container to the composite map, and
      removes every other position through the iterator. */
  method RebuildCache(world: World, positions: seq<DimPos>) returns (kept: seq<DimPos>, elements: seq<map<int, VariableFacade>>)
    ensures kept == ValidPositions(world, positions)
    ensures elements == ContainerMaps(world, kept)
  {
    kept := [];
    elements := [];
    var i := 0;
    while i < |positions|
      invariant 0 <= i <= |positions|
      invariant kept == ValidPositions(world, positions[..i])
      invariant |elements| == |kept|
      invariant forall k | 0 <= k < |kept| :: elements[k] == world.variableContainers[kept[k]]
    {
      var dimPos := positions[i];
      assert positions[..i + 1][..i] == positions[..i];
      if dimPos in world.variableContainers {
        elements := elements + [world.variableContainers[dimPos]];
        kept := kept + [dimPos];
      }
      i := i + 1;
    }
    assert positions[..|positions|] == positions;
  }

  /** `getVariableCache`: a built cache is returned as it is; otherwise the
      cache is rebuilt from the valid containers and the invalid positions
      are dropped from the list. */
  function GetVariableCache(n: PartNetwork, world: World): (r: (PartNetwork, seq<map<int, VariableFacade>>))
    ensures r.0.compositeVariableCache == Built(r.1)
    ensures n.compositeVariableCache.Built? ==> r.0 == n && r.1 == n.compositeVariableCache.elements
    ensures n.compositeVariableCache.Unbuilt? ==>
      && r.0.variableContainerPositions == ValidPositions(world, n.variableContainerPositions)
      && r.1 == ContainerMaps(world, r.0.variableContainerPositions)
    ensures r.0.partPositions == n.partPositions
    ensures r.0.lazyExpressionValueCache == n.lazyExpressionValueCache
    ensures r.0.partsChanged == n.partsChanged
  {
    match n.compositeVariableCache
    case Built(elements) => (n, elements)
    case Unbuilt =>
      var kept := ValidPositions(world, n.variableContainerPositions);
      var elements := ContainerMaps(world, kept);
      (n.(variableContainerPositions := kept, compositeVariableCache := Built(elements)), elements)
  }

  /** Asking for the cache a second time changes nothing and gives the same
      maps, even if the world has changed in between. */
  lemma {:induction false} GetVariableCacheIdempotent(n: PartNetwork, world: World, world': World)
    ensures var (n1, c1) := GetVariableCache(n, world);
      GetVariableCache(n1, world') == (n1, c1)
  {
  }

  /** After a rebuild the list holds a position exactly when it held it
      before and it is a variable container. */
  lemma {:induction false} RebuildKeepsValid(n: PartNetwork, world: World, p: DimPos)
    requires n.compositeVariableCache.Unbuilt?
    ensures p in GetVariableCache(n, world).0.variableContainerPositions
        <==> p in n.variableContainerPositions && p in world.variableContainers
  {
    ValidPositionsMembers(world, n.variableContainerPositions, p);
  }

  /** `CompositeMap.containsKey`: one of the maps has the key. */
  predicate CompositeHas(elements: seq<map<int, VariableFacade>>, id: int) {
    exists k | 0 <= k < |elements| :: id in elements[k]
  }

  /** `CompositeMap.get`: the value of the first map that has the key. */
  function CompositeGet(elements: seq<map<int, VariableFacade>>, id: int): Option<VariableFacade> {
    if |elements| == 0 then None
    else if id in elements[0] then Some(elements[0][id])
    else CompositeGet(elements[1..], id)
  }

  /** The lookup finds nothing exactly when no map has the key. */
  lemma {:induction false} CompositeGetNone(elements: seq<map<int, VariableFacade>>, id: int)
    ensures CompositeGet(elements, id).None? <==> !CompositeHas(elements, id)
  {
    if |elements| > 0 && id !in elements[0] {
      CompositeGetNone(elements[1..], id);
      if CompositeHas(elements, id) {
        var k :| 0 <= k < |elements| && id in elements[k];
        assert elements[1..][k - 1] == elements[k];
      }
    }
  }

  /** The first map that has the key decides the lookup: a later map with
      the same key is shadowed. */
  lemma {:induction false} CompositeGetFirst(elements: seq<map<int, VariableFacade>>, id: int, k: int)
    requires 0 <= k < |elements| && id in elements[k]
    requires forall j | 0 <= j < k :: id !in elements[j]
    ensures CompositeGet(elements, id) == Some(elements[k][id])
  {
    if k > 0 {
      assert id !in elements[0];
      forall j | 0 <= j < k - 1
        ensures id !in elements[1..][j]
      {
        assert elements[1..][j] == elements[j + 1];
      }
      CompositeGetFirst(elements[1..], id, k - 1);
    }
  }

  /** The rebuilt cache has an id exactly when some listed position is a
      variable container holding it. */
  lemma {:induction false} RebuiltCacheHas(world: World, positions: seq<DimPos>, id: int)
    ensures CompositeHas(ContainerMaps(world, ValidPositions(world, positions)), id)
        <==> exists p | p in positions :: p in world.variableContainers && id in world.variableContainers[p]
  {
    var kept := ValidPositions(world, positions);
    var elements := ContainerMaps(world, kept);
    if CompositeHas(elements, id) {
      var k :| 0 <= k < |elements| && id in elements[k];
      ValidPositionsMembers(world, positions, kept[k]);
    }
    if exists p | p in positions :: p in world.variableContainers && id in world.variableContainers[p] {
      var p :| p in positions && p in world.variableContainers && id in world.variableContainers[p];
      ValidPositionsMembers(world, positions, p);
      var k :| 0 <= k < |kept| && kept[k] == p;
      assert id in elements[k];
    }
  }

  /** `hasVariableFacade`: the cache, built if needed, has the id; a cache
      that still has to be built has it exactly when a listed variable
      container holds it. */
  function HasVariableFacade(n: PartNetwork, world: World, variableId: int): (r: (PartNetwork, bool))
    ensures r.0 == GetVariableCache(n, world).0
    ensures n.compositeVariableCache.Built? ==>
      (r.1 <==> exists k | 0 <= k < |n.compositeVariableCache.elements| :: variableId in n.compositeVariableCache.elements[k])
    ensures n.compositeVariableCache.Unbuilt? ==>
      (r.1 <==> exists p | p in n.variableContainerPositions ::
                  p in world.variableContainers && variableId in world.variableContainers[p])
  {
    RebuiltCacheHas(world, n.variableContainerPositions, variableId);
    var (n1, cache) := GetVariableCache(n, world);
    (n1, CompositeHas(cache, variableId))
  }

  /** `getVariableFacade`: the cache's facade for the id, if any. */
  function GetVariableFacade(n: PartNetwork, world: World, variableId: int): (r: (PartNetwork, Option<VariableFacade>))
    ensures r.0 == GetVariableCache(n, world).0
    ensures r.1.Some? <==> HasVariableFacade(n, world, variableId).1
    ensures var c := GetVariableCache(n, world).1;
      forall k | 0 <= k < |c| && variableId in c[k] && (forall j | 0 <= j < k :: variableId !in c[j]) ::
        r.1 == Some(c[k][variableId])
  {
    var (n1, cache) := GetVariableCache(n, world);
    CompositeGetNone(cache, variableId);
    forall k | 0 <= k < |cache| && variableId in cache[k] && (forall j | 0 <= j < k :: variableId !in cache[j])
      ensures CompositeGet(cache, variableId) == Some(cache[k][variableId])
    {
      CompositeGetFirst(cache, variableId, k);
    }
    (n1, CompositeGet(cache, variableId))
  }

  /** `addVariableContainer`: appends the position and drops the cache; the
      list accepts every position, so the result is always `true`. */
  function AddVariableContainer(n: PartNetwork, dimPos: DimPos): (r: (PartNetwork, bool))
    ensures r.1
    ensures r.0.compositeVariableCache.Unbuilt?
    ensures |r.0.variableContainerPositions| == |n.variableContainerPositions| + 1
    ensures r.0.variableContainerPositions[..|n.variableContainerPositions|] == n.variableContainerPositions
    ensures r.0.variableContainerPositions[|n.variableContainerPositions|] == dimPos
    ensures r.0.partPositions == n.partPositions && r.0.lazyExpressionValueCache == n.lazyExpressionValueCache
    ensures r.0.partsChanged == n.partsChanged
  {
    (n.(compositeVariableCache := Unbuilt, variableContainerPositions := n.variableContainerPositions + [dimPos]), true)
  }

  /** `List.remove(Object)`: drops the first occurrence, if there is one. */
  function RemoveFirst<T(==)>(s: seq<T>, x: T): seq<T> {
    if |s| == 0 then []
    else if s[0] == x then s[1..]
    else [s[0]] + RemoveFirst(s[1..], x)
  }

  /** Removal takes one copy of `x` out of the list, and leaves a list
      without `x` as it is. */
  lemma {:induction false} RemoveFirstCounts<T>(s: seq<T>, x: T)
    ensures x !in s ==> RemoveFirst(s, x) == s
    ensures multiset(RemoveFirst(s, x)) == multiset(s) - multiset{x}
  {
    if |s| > 0 {
      assert s == [s[0]] + s[1..];
      if s[0] != x {
        RemoveFirstCounts(s[1..], x);
      }
    }
  }

  /** It is the first occurrence that goes: the elements before it and after
      it stay, in order. */
  lemma {:induction false} RemoveFirstAt<T>(s: seq<T>, x: T, i: int)
    requires 0 <= i < |s| && s[i] == x
    requires forall j | 0 <= j < i :: s[j] != x
    ensures RemoveFirst(s, x) == s[..i] + s[i + 1..]
  {
    if i > 0 {
      RemoveFirstAt(s[1..], x, i - 1);
      assert s[1..][..i - 1] == s[1..i];
      assert s[1..][i..] == s[i + 1..];
      assert [s[0]] + s[1..i] == s[..i];
    }
  }

  /** `removeVariableContainer`: drops the first occurrence of the position
      and drops the cache. */
  function RemoveVariableContainer(n: PartNetwork, dimPos: DimPos): (r: PartNetwork)
    ensures r.compositeVariableCache.Unbuilt?
    ensures multiset(r.variableContainerPositions) == multiset(n.variableContainerPositions) - multiset{dimPos}
    ensures dimPos !in n.variableContainerPositions ==> r.variableContainerPositions == n.variableContainerPositions
    ensures var s := n.variableContainerPositions;
      forall i | 0 <= i < |s| && s[i] == dimPos && (forall j | 0 <= j < i :: s[j] != dimPos) ::
        r.variableContainerPositions == s[..i] + s[i + 1..]
    ensures r.partPositions == n.partPositions && r.lazyExpressionValueCache == n.lazyExpressionValueCache
    ensures r.partsChanged == n.partsChanged
  {
    RemoveFirstCounts(n.variableContainerPositions, dimPos);
    var s := n.variableContainerPositions;
    forall i | 0 <= i < |s| && s[i] == dimPos && (forall j | 0 <= j < i :: s[j] != dimPos)
      ensures RemoveFirst(s, dimPos) == s[..i] + s[i + 1..]
    {
      RemoveFirstAt(s, dimPos, i);
    }
    n.(compositeVariableCache := Unbuilt, variableContainerPositions := RemoveFirst(n.variableContainerPositions, dimPos))
  }

  /** Removing a position from behind a list that does not hold it gives the
      list back. */
  lemma {:induction false} RemoveFirstAppended<T>(s: seq<T>, x: T)
    requires x !in s
    ensures RemoveFirst(s + [x], x) == s
  {
    var t := s + [x];
    forall j | 0 <= j < |s|
      ensures t[j] != x
    {
      assert t[j] == s[j];
    }
    RemoveFirstAt(t, x, |s|);
    assert t[..|s|] == s;
    assert t[|s| + 1..] == [];
  }

  /** Adding a new container position and removing it again restores the
      list; the cache stays dropped. */
  lemma {:induction false} AddRemoveVariableContainer(n: PartNetwork, dimPos: DimPos)
    requires dimPos !in n.variableContainerPositions
    ensures RemoveVariableContainer(AddVariableContainer(n, dimPos).0, dimPos)
         == n.(compositeVariableCache := Unbuilt)
  {
    RemoveFirstAppended(n.variableContainerPositions, dimPos);
  }

  /** A container added to the network takes part in the next rebuild
      exactly when the block there is a variable container. */
  lemma {:induction false} AddedContainerRebuilt(n: PartNetwork, world: World, dimPos: DimPos)
    ensures var n1 := AddVariableContainer(n, dimPos).0;
      GetVariableCache(n1, world).0.variableContainerPositions
        == ValidPositions(world, n.variableContainerPositions) + (if dimPos in world.variableContainers then [dimPos] else [])
  {
    var positions := n.variableContainerPositions + [dimPos];
    assert positions[..|positions| - 1] == n.variableContainerPositions;
  }

  /* ---------------------------------------------------------------------
     Values evaluated in this tick, and the parts-changed signal
     --------------------------------------------------------------------- */

  /** `setValue`: stores the value under the id. */
  function SetValue(n: PartNetwork, id: int, value: Value): (r: PartNetwork)
    ensures HasValue(r, id) && GetValue(r, id) == Some(value)
    ensures forall other | other != id :: HasValue(r, other) == HasValue(n, other) && GetValue(r, other) == GetValue(n, other)
    ensures r.(lazyExpressionValueCache := n.lazyExpressionValueCache) == n
  {
    n.(lazyExpressionValueCache := n.lazyExpressionValueCache[id := value])
  }

  /** `hasValue`: the id has a value this tick, which is exactly when
      `getValue` gives one. */
  function HasValue(n: PartNetwork, id: int): (r: bool)
    ensures r <==> GetValue(n, id).Some?
  {
    id in n.lazyExpressionValueCache
  }

  /** `getValue`: the stored value, `None` for `null`. */
  function GetValue(n: PartNetwork, id: int): (r: Option<Value>)
    ensures r.Some? <==> id in n.lazyExpressionValueCache
  {
    if id in n.lazyExpressionValueCache then Some(n.lazyExpressionValueCache[id]) else None
  }

  /** `notifyPartsChanged`: raises the flag, and nothing else. */
  function NotifyPartsChanged(n: PartNetwork): (r: PartNetwork)
    ensures r.partsChanged
    ensures r.(partsChanged := n.partsChanged) == n
  {
    n.(partsChanged := true)
  }

  /** `onUpdate`, after the base class's own update (not part of this
      model): forgets the values of the tick and, if the flag was raised,
      lowers it and signals the change once. The second component tells
      whether `onPartsChanged` ran. */
  function OnUpdate(n: PartNetwork): (r: (PartNetwork, bool))
    ensures forall id :: !HasValue(r.0, id)
    ensures !r.0.partsChanged
    ensures r.1 == n.partsChanged
    ensures r.0.partPositions == n.partPositions
    ensures r.0.variableContainerPositions == n.variableContainerPositions
    ensures r.0.compositeVariableCache == n.compositeVariableCache
  {
    (n.(lazyExpressionValueCache := map[], partsChanged := false), n.partsChanged)
  }

  /** `removeCable`, given whether the base class removed the cable: the
      flag is raised only on success, and the result is that success. */
  function RemoveCable(n: PartNetwork, removedByNetwork: bool): (r: (PartNetwork, bool))
    ensures r.1 == removedByNetwork
    ensures removedByNetwork ==> r.0 == NotifyPartsChanged(n)
    ensures !removedByNetwork ==> r.0 == n
  {
    if removedByNetwork then (NotifyPartsChanged(n), true) else (n, false)
  }

  /** Any number of notifications before an update signal the change once:
      the update after the first signals it, the next one does not. */
  lemma {:induction false} ChangesCoalesce(n: PartNetwork)
    ensures OnUpdate(NotifyPartsChanged(NotifyPartsChanged(n))).1
    ensures OnUpdate(NotifyPartsChanged(NotifyPartsChanged(n))) == OnUpdate(NotifyPartsChanged(n))
    ensures !OnUpdate(OnUpdate(NotifyPartsChanged(n)).0).1
  {
  }

  /** A value set during a tick is gone after the update, and the update
      leaves the network's structure alone. */
  lemma {:induction false} ValuesLastOneTick(n: PartNetwork, id: int, value: Value)
    ensures GetValue(SetValue(n, id, value), id) == Some(value)
    ensures GetValue(OnUpdate(SetValue(n, id, value)).0, id) == None
    ensures OnUpdate(SetValue(n, id, value)) == OnUpdate(n)
  {
  }

  /** A successful cable removal is signalled at the next update; a failed
      one is not. */
  lemma {:induction false} RemovedCableSignalled(n: PartNetwork, removedByNetwork: bool)
    requires !n.partsChanged
    ensures OnUpdate(RemoveCable(n, removedByNetwork).0).1 == removedByNetwork
  {
  }
}

=== FILE: slash_codec.dfy ===
/** The backslash transcoder of `ValueHelpers` (`compressSlashes`,
    `uncompressSlashes`) and the raw value serialization built on it
    (`serializeRaw`, `deserializeRaw`).

    A maximal run of more than `SlashThreshold` backslashes is replaced by
    `Marker`, the run length minus one in decimal, and `#\#`; decompression
    splits on the marker and repeats the text between the next two `#` that
    many times plus one. */
module SlashCodec {
  import opened Wrappers
  import opened JavaStrings

  /** `compressionMarker`. */
  const Marker: string := "#H#A#C#K#"

  /** `slashThreshold`: runs of backslashes up to this length are copied. */
  const SlashThreshold: nat := 32

  /** Persisted in place of a value whose compressed form is too long. */
  const TooLong: string := "TOO LONG"

  /** The exceptions `uncompressSlashes` can throw on a malformed fragment:
      `substring`/`charAt` out of range, array index out of range, and
      `Integer.parseInt` failing on the given text. */
  datatype CodecError = IndexOutOfBounds | NumberFormat(text: string)

  predicate HashFree(s: string) {
    forall i | 0 <= i < |s| :: s[i] != '#'
  }

  /* ---------------------------------------------------------------------
     Compression
     --------------------------------------------------------------------- */

  /** The length of the run of backslashes that starts `s`. */
  function RunLength(s: string): (n: nat)
    ensures n <= |s|
  {
    if |s| == 0 || s[0] != '\\' then 0 else 1 + RunLength(s[1..])
  }

  /** `RunLength` is the length of the longest all-backslash prefix. */
  lemma {:induction false} RunLengthMaximal(s: string)
    ensures forall j | 0 <= j < RunLength(s) :: s[j] == '\\'
    ensures RunLength(s) < |s| ==> s[RunLength(s)] != '\\'
  {
    if |s| > 0 && s[0] == '\\' {
      RunLengthMaximal(s[1..]);
    }
  }

  /** Conversely, a backslash prefix of length `n` followed by another
      character or by the end of the string is the run. */
  lemma {:induction false} RunLengthIs(s: string, n: nat)
    requires n <= |s|
    requires forall j | 0 <= j < n :: s[j] == '\\'
    requires n == |s| || s[n] != '\\'
    ensures RunLength(s) == n
  {
    if n > 0 {
      RunLengthIs(s[1..], n - 1);
    }
  }

  /** What the loop appends for a run it counted as `count` backslashes. */
  function RunText(count: nat): string {
    if count > SlashThreshold then Marker + IntToString(count - 1) + "#\\#"
    else Repeat("\\", count)
  }

  /** Reference definition of the compression loop's output. A run of `n`
      backslashes followed by a character `c` becomes `RunText(n) + [c]`; a run
      that reaches the end of the string is counted one short, because the
      loop stops counting at the last index, and its last backslash is then
      appended as the current character. */
  function EncodeRuns(s: string): string
    decreases |s|
  {
    if |s| == 0 then []
    else
      var n := RunLength(s);
      if n == |s| then RunText(n - 1) + "\\"
      else RunText(n) + [s[n]] + EncodeRuns(s[n + 1..])
  }

  /** One step of the encoding: `count` backslashes followed by `t[count]`,
      which is another character or the last one, encode as `RunText(count)`
      followed by that character. */
  lemma {:induction false} EncodeRunsStep(t: string, count: nat)
    requires count < |t|
    requires forall k | 0 <= k < count :: t[k] == '\\'
    requires t[count] != '\\' || count == |t| - 1
    ensures EncodeRuns(t) == RunText(count) + [t[count]] + EncodeRuns(t[count + 1..])
  {
    if t[count] != '\\' {
      RunEndsBefore(t, count);
    } else {
      RunReachesEnd(t, count);
    }
  }

  /** A run ended by another character. */
  lemma {:induction false} RunEndsBefore(t: string, count: nat)
    requires count < |t| && t[count] != '\\'
    requires forall k | 0 <= k < count :: t[k] == '\\'
    ensures EncodeRuns(t) == RunText(count) + [t[count]] + EncodeRuns(t[count + 1..])
  {
    RunLengthIs(t, count);
  }

  /** A run that reaches the end: its last backslash is emitted as the
      character the loop stops on, and nothing follows. */
  lemma {:induction false} RunReachesEnd(t: string, count: nat)
    requires count == |t| - 1 && t[count] == '\\'
    requires forall k | 0 <= k < count :: t[k] == '\\'
    ensures EncodeRuns(t) == RunText(count) + [t[count]] + EncodeRuns(t[count + 1..])
  {
    RunLengthIs(t, |t|);
    assert EncodeRuns(t) == RunText(count) + "\\";
    assert t[count + 1..] == [];
    AppendEmpty(RunText(count) + [t[count]]);
  }

  lemma {:induction false} AppendEmpty(a: string)
    ensures a + [] == a
  {
  }

  /** `compressSlashes`: strings shorter than a quarter of the maximum value
      size are returned as they are; longer ones are first decompressed, so
      that markers never nest, and then run-length encoded. */
  function CompressSlashes(str: string, maxValueByteSize: Int32): (r: Result<string, CodecError>)
    ensures |str| < TruncDiv(maxValueByteSize, 4) ==> r == Success(str)
    ensures |str| >= TruncDiv(maxValueByteSize, 4) && UncompressSlashes(str).Failure? ==> r.Failure?
  {
    if |str| < TruncDiv(maxValueByteSize, 4) then Success(str)
    else
      var uncompressed :- UncompressSlashes(str);
      Success(EncodeRuns(uncompressed))
  }

  /* ---------------------------------------------------------------------
     Decompression
     --------------------------------------------------------------------- */

  /** One fragment after a marker, `<number>#<piece>#<rest>`, becomes `piece`
      repeated `number + 1` times (Java `int` addition) followed by `rest`. */
  function ExpandFragment(fragment: string): Result<string, CodecError> {
    match IndexOfChar(fragment, '#', 0)
    case None => Failure(IndexOutOfBounds)
    case Some(index) =>
      match ParseInt(fragment[..index])
      case None => Failure(NumberFormat(fragment[..index]))
      case Some(number) =>
        match IndexOfChar(fragment, '#', index + 1)
        case None => Failure(IndexOutOfBounds)
        case Some(index2) =>
          Success(Repeat(fragment[index + 1..index2], AddInt32(number, 1)) + fragment[index2 + 1..])
  }

  /** The expansions of all fragments, in order; the first failure wins. */
  function ExpandFragments(fragments: seq<string>): Result<string, CodecError> {
    if |fragments| == 0 then Success([])
    else
      var head :- ExpandFragment(fragments[0]);
      var tail :- ExpandFragments(fragments[1..]);
      Success(head + tail)
  }

  /** `uncompressSlashes`: the input itself when splitting on the marker gives
      one piece; otherwise the first piece followed by the expansion of the
      others. */
  function UncompressSlashes(str: string): (r: Result<string, CodecError>)
    ensures Find(str, Marker).None? ==> r == Success(str)
  {
    var strs := Split(str, Marker);
    if |strs| == 1 then Success(str)
    else if |strs| == 0 then Failure(IndexOutOfBounds)
    else
      var tail :- ExpandFragments(strs[1..]);
      Success(strs[0] + tail)
  }

  /* ---------------------------------------------------------------------
     Raw value serialization
     --------------------------------------------------------------------- */

  /** `serializeRaw` on the string the value type serialized the value to:
      the compressed string, or the sentinel when it is too long. */
  function SerializeRaw(raw: string, maxValueByteSize: Int32): (r: Result<string, CodecError>)
    ensures CompressSlashes(raw, maxValueByteSize).Failure? ==> r.Failure?
    ensures r.Success? ==> |r.value| < maxValueByteSize || r.value == TooLong
    ensures CompressSlashes(raw, maxValueByteSize).Success? ==>
      (r == Success(TooLong) <==>
        |CompressSlashes(raw, maxValueByteSize).value| >= maxValueByteSize
        || CompressSlashes(raw, maxValueByteSize).value == TooLong)
    ensures CompressSlashes(raw, maxValueByteSize).Success? && |CompressSlashes(raw, maxValueByteSize).value| < maxValueByteSize ==>
      r == CompressSlashes(raw, maxValueByteSize)
  {
    var compressed :- CompressSlashes(raw, maxValueByteSize);
    if |compressed| >= maxValueByteSize then Success(TooLong) else Success(compressed)
  }

  /** `deserializeRaw`: the type's default for the sentinel, otherwise the
      type's own `deserialize` of the decompressed string. */
  function DeserializeRaw<T>(valueString: string, default: T, deserialize: string -> T): (r: Result<T, CodecError>)
    ensures valueString == TooLong ==> r == Success(default)
    ensures valueString != TooLong && Find(valueString, Marker).None? ==> r == Success(deserialize(valueString))
  {
    if valueString == TooLong then Success(default)
    else
      var uncompressed :- UncompressSlashes(valueString);
      Success(deserialize(uncompressed))
  }
}

=== FILE: slash_codec_proofs.dfy ===
/** Properties of the backslash transcoder: decompression inverts compression
    on `#`-free text, compression is idempotent there, short runs are copied,
    and input that already holds the marker text makes decompression throw. */
module SlashCodecProofs {
  import opened Wrappers
  import opened JavaStrings
  import opened SlashCodec

  /* ---------------------------------------------------------------------
     Where the marker can occur
     --------------------------------------------------------------------- */

  /** No marker starts in `t` before position `k`. */
  ghost predicate NoMarkerBefore(t: string, k: int) {
    forall p | 0 <= p < k :: !OccursAt(t, Marker, p)
  }

  lemma {:induction false} OccursAtChar(s: string, pat: string, i: int, k: int)
    requires OccursAt(s, pat, i) && 0 <= k < |pat|
    ensures s[i + k] == pat[k]
  {
    OccursAtIff(s, pat, i);
  }

  /** A pattern does not occur where one of its characters is missing. */
  lemma {:induction false} MismatchNoOccurrence(s: string, pat: string, i: nat, k: nat)
    requires k < |pat|
    requires i + k >= |s| || s[i + k] != pat[k]
    ensures !OccursAt(s, pat, i)
  {
    if OccursAt(s, pat, i) {
      OccursAtChar(s, pat, i, k);
    }
  }

  /** Occurrences in `y` are occurrences in `x + y`, shifted by `|x|`. */
  lemma {:induction false} ShiftOccurs(x: string, y: string, p: nat)
    ensures OccursAt(x + y, Marker, p + |x|) <==> OccursAt(y, Marker, p)
  {
    var t := x + y;
    OccursAtIff(t, Marker, p + |x|);
    OccursAtIff(y, Marker, p);
    if p + |x| + |Marker| <= |t| {
      assert forall k | p <= k < p + |Marker| :: t[|x| + k] == y[k];
    }
  }

  /** The same, from a position in `x + y` at or after `|x|`. */
  lemma {:induction false} UnshiftOccurs(x: string, y: string, q: nat)
    requires q >= |x|
    ensures OccursAt(x + y, Marker, q) <==> OccursAt(y, Marker, q - |x|)
  {
    ShiftOccurs(x, y, q - |x|);
  }

  /** With no marker starting before `|x|`, a marker-free `y` leaves `x + y`
      marker-free. */
  lemma {:induction false} FindSkipNone(x: string, y: string)
    requires NoMarkerBefore(x + y, |x|)
    requires Find(y, Marker).None?
    ensures Find(x + y, Marker).None?
  {
    var r := Find(x + y, Marker);
    if r.Some? {
      FindSpec(x + y, Marker);
      UnshiftOccurs(x, y, r.value);
      FindFirst(y, Marker, r.value - |x|);
    }
  }

  /** With no marker starting before `|x|`, the first marker of `x + y` is
      the first marker of `y`, shifted. */
  lemma {:induction false} FindSkipSome(x: string, y: string)
    requires NoMarkerBefore(x + y, |x|)
    requires Find(y, Marker).Some?
    ensures Find(x + y, Marker) == Some(Find(y, Marker).value + |x|)
  {
    var t := x + y;
    var i := Find(y, Marker).value;
    FindSpec(y, Marker);
    ShiftOccurs(x, y, i);
    FindFirst(t, Marker, i + |x|);
    var k := Find(t, Marker).value;
    FindSpec(t, Marker);
    UnshiftOccurs(x, y, k);
    FindFirst(y, Marker, k - |x|);
  }

  /** Text in which no marker starts joins the first piece of the split. */
  lemma {:induction false} SplitSkip(x: string, y: string)
    requires NoMarkerBefore(x + y, |x|)
    ensures LiteralSplit(x + y, Marker)
         == [x + LiteralSplit(y, Marker)[0]] + LiteralSplit(y, Marker)[1..]
  {
    match Find(y, Marker)
    case None =>
      FindSkipNone(x, y);
      assert LiteralSplit(y, Marker)[1..] == [];
    case Some(i) =>
      FindSpec(y, Marker);
      FindSkipSome(x, y);
      var t := x + y;
      assert t[..i + |x|] == x + y[..i];
      assert t[i + |x| + |Marker|..] == y[i + |Marker|..];
  }

  /** A leading marker produces an empty first piece. */
  lemma {:induction false} SplitAfterMarker(y: string)
    ensures LiteralSplit(Marker + y, Marker) == [[]] + LiteralSplit(y, Marker)
  {
    var t := Marker + y;
    OccursAtIff(t, Marker, 0);
    assert forall k | 0 <= k < |Marker| :: t[k] == Marker[k];
    assert t[..0] == [];
    assert t[|Marker|..] == y;
  }

  /** No marker starts inside `#`-free text. */
  lemma {:induction false} HashFreeNoOccurrence(a: string, y: string)
    requires HashFree(a)
    ensures NoMarkerBefore(a + y, |a|)
  {
    forall p | 0 <= p < |a|
      ensures !OccursAt(a + y, Marker, p)
    {
      MismatchNoOccurrence(a + y, Marker, p, 0);
    }
  }

  lemma {:induction false} HashFreeNoMarker(s: string)
    requires HashFree(s)
    ensures Find(s, Marker).None?
  {
    forall p | 0 <= p
      ensures !OccursAt(s, Marker, p)
    {
      MismatchNoOccurrence(s, Marker, p, 0);
    }
    if Find(s, Marker).Some? {
      FindSpec(s, Marker);
    }
  }

  /** `t` does not start with `H#A`, the text that would complete a marker
      from a `#` just before it. */
  predicate NoHashA(t: string) {
    !(|t| >= 3 && t[0] == 'H' && t[1] == '#' && t[2] == 'A')
  }

  /** No marker starts inside `<count>#\#` when the text after it does not
      start with `H#A`. */
  lemma {:induction false} CountNoOccurrence(n: nat, tail: string)
    requires NoHashA(tail)
    ensures NoMarkerBefore(IntToString(n) + "#\\#" + tail, |IntToString(n) + "#\\#"|)
  {
    var dec := IntToString(n);
    var t := dec + "#\\#" + tail;
    NatToDecimalDigits(n);
    assert AllDigits(dec);
    forall p | 0 <= p < |dec + "#\\#"|
      ensures !OccursAt(t, Marker, p)
    {
      if p < |dec| {
        assert t[p] == dec[p];
        MismatchNoOccurrence(t, Marker, p, 0);
      } else if p == |dec| {
        MismatchNoOccurrence(t, Marker, p, 1);
      } else if p == |dec| + 1 {
        MismatchNoOccurrence(t, Marker, p, 0);
      } else if |tail| < 1 || tail[0] != 'H' {
        MismatchNoOccurrence(t, Marker, p, 1);
      } else if |tail| < 2 || tail[1] != '#' {
        MismatchNoOccurrence(t, Marker, p, 2);
      } else {
        MismatchNoOccurrence(t, Marker, p, 3);
      }
    }
  }

  /* ---------------------------------------------------------------------
     Expanding one compressed run
     --------------------------------------------------------------------- */

  /** The first `#` after a digit string is the one right after it. */
  lemma {:induction false} FirstHashAfterDigits(dec: string, rest: string)
    requires AllDigits(dec) && |rest| > 0 && rest[0] == '#'
    ensures IndexOfChar(dec + rest, '#', 0) == Some(|dec|)
  {
    var f := dec + rest;
    assert forall j | 0 <= j < |dec| :: f[j] == dec[j];
    assert f[|dec|] == '#';
  }

  /** The second `#` of `#\#` closes the one-backslash piece. */
  lemma {:induction false} SecondHash(f: string, at: nat)
    requires at + 2 < |f| && f[at + 1] == '\\' && f[at + 2] == '#'
    ensures IndexOfChar(f, '#', at + 1) == Some(at + 2)
  {
    assert IndexOfChar(f, '#', at + 2) == Some(at + 2);
  }

  /** A compressed run expands back into its backslashes. */
  lemma {:induction false} ExpandCount(n: nat, tail: string)
    requires n < MaxInt
    ensures ExpandFragment(IntToString(n) + "#\\#" + tail) == Success(Repeat("\\", n + 1) + tail)
  {
    var dec := IntToString(n);
    var f := dec + "#\\#" + tail;
    NatToDecimalDigits(n);
    CountFragmentPieces(dec, tail);
    FirstHashAfterDigits(dec, "#\\#" + tail);
    ParseIntToString(n);
    SecondHash(f, |dec|);
    ExpandFragmentAt(f, |dec|, |dec| + 2, n, "\\", n + 1, tail);
  }

  /** The pieces of `<dec>#\#<tail>` around its two `#`. */
  lemma {:induction false} CountFragmentPieces(dec: string, tail: string)
    ensures var f := dec + "#\\#" + tail;
      && f == dec + ("#\\#" + tail)
      && |f| == |dec| + 3 + |tail|
      && f[..|dec|] == dec
      && f[|dec| + 1] == '\\' && f[|dec| + 2] == '#'
      && f[|dec| + 1..|dec| + 2] == "\\"
      && f[|dec| + 3..] == tail
  {
    var f := dec + "#\\#" + tail;
    assert f == dec + ("#\\#" + tail);
    assert f[..|dec|] == dec;
    assert f[|dec| + 1..|dec| + 2] == "\\";
    assert f[|dec| + 3..] == tail;
  }

  /** `ExpandFragment` once its two `#`, its count and its pieces are known. */
  lemma {:induction false} ExpandFragmentAt(f: string, index: nat, index2: nat, number: Int32,
                                            piece: string, times: int, rest: string)
    requires IndexOfChar(f, '#', 0) == Some(index)
    requires ParseInt(f[..index]) == Some(number)
    requires IndexOfChar(f, '#', index + 1) == Some(index2)
    requires f[index + 1..index2] == piece && AddInt32(number, 1) == times && f[index2 + 1..] == rest
    ensures ExpandFragment(f) == Success(Repeat(piece, times) + rest)
  {
  }

  /** Expanding a non-empty list of fragments. */
  lemma {:induction false} ExpandFragmentsCons(f: string, fs: seq<string>)
    requires ExpandFragment(f).Success? && ExpandFragments(fs).Success?
    ensures ExpandFragments([f] + fs) == Success(ExpandFragment(f).value + ExpandFragments(fs).value)
  {
    assert ([f] + fs)[0] == f;
    assert ([f] + fs)[1..] == fs;
  }

  /* ---------------------------------------------------------------------
     Decoding compressed text piece by piece
     --------------------------------------------------------------------- */

  /** The pieces of a split on the marker: the fragments after the first
      piece are non-empty, and the first piece followed by their expansions
      spells `s`. */
  ghost predicate DecodesParts(parts: seq<string>, s: string) {
    && |parts| >= 1
    && (forall k | 1 <= k < |parts| :: parts[k] != [])
    && ExpandFragments(parts[1..]).Success?
    && parts[0] + ExpandFragments(parts[1..]).value == s
  }

  /** Splitting `e` on the marker gives pieces that decode to `s`. */
  ghost predicate Decodes(e: string, s: string) {
    DecodesParts(LiteralSplit(e, Marker), s)
  }

  lemma {:induction false} DecodesEmpty()
    ensures Decodes([], [])
  {
    assert LiteralSplit([], Marker) == [[]];
  }

  /** Text put in front of the first piece is copied in front of the
      decoding. */
  lemma {:induction false} PartsPrefix(x: string, q: seq<string>, s: string)
    requires DecodesParts(q, s)
    ensures DecodesParts([x + q[0]] + q[1..], x + s)
  {
    var parts := [x + q[0]] + q[1..];
    assert parts[1..] == q[1..];
    AppendAssoc(x, q[0], ExpandFragments(q[1..]).value);
  }

  /** Text in which no marker starts is copied in front of the decoding. */
  lemma {:induction false} PrefixDecodes(x: string, y: string, s: string)
    requires NoMarkerBefore(x + y, |x|)
    requires Decodes(y, s)
    ensures Decodes(x + y, x + s)
  {
    SplitSkip(x, y);
    PartsPrefix(x, LiteralSplit(y, Marker), s);
  }

  /** The split of a marker, a count, `#\#` and text without a leading `H#A`:
      an empty first piece, then the count fragment running into the text's
      first piece, then the text's other pieces. */
  lemma {:induction false} MarkedSplit(n: nat, w: string)
    requires NoHashA(w)
    ensures var q := LiteralSplit(w, Marker);
      LiteralSplit(Marker + (IntToString(n) + "#\\#" + w), Marker)
        == [[], IntToString(n) + "#\\#" + q[0]] + q[1..]
  {
    var x := IntToString(n) + "#\\#";
    var q := LiteralSplit(w, Marker);
    CountNoOccurrence(n, w);
    SplitSkip(x, w);
    SplitAfterMarker(x + w);
    assert [[]] + ([x + q[0]] + q[1..]) == [[], x + q[0]] + q[1..];
  }

  /** A count fragment in front of pieces that decode to `s` decodes to
      `count + 1` backslashes followed by `s`. */
  lemma {:induction false} PartsMarked(n: nat, q: seq<string>, s: string)
    requires n < MaxInt
    requires DecodesParts(q, s)
    ensures DecodesParts([[], IntToString(n) + "#\\#" + q[0]] + q[1..], Repeat("\\", n + 1) + s)
  {
    var frag := IntToString(n) + "#\\#" + q[0];
    var parts := [[], frag] + q[1..];
    var run := Repeat("\\", n + 1);
    var tail := ExpandFragments(q[1..]).value;
    assert parts[0] == [];
    assert parts[1..] == [frag] + q[1..];
    forall k | 1 <= k < |parts|
      ensures parts[k] != []
    {
      if k == 1 {
        assert |frag| >= 3;
      } else {
        assert parts[k] == q[k - 1];
      }
    }
    ExpandCount(n, q[0]);
    ExpandFragmentsCons(frag, q[1..]);
    assert ExpandFragments(parts[1..]) == Success((run + q[0]) + tail);
    AppendAssoc(run, q[0], tail);
    assert [] + ((run + q[0]) + tail) == run + s;
  }

  /** A marker, a count and `#\#` in front of text decoding to `s` decode to
      `count + 1` backslashes followed by `s`. */
  lemma {:induction false} MarkedRunDecodes(n: nat, w: string, s: string)
    requires n < MaxInt
    requires NoHashA(w)
    requires Decodes(w, s)
    ensures Decodes(Marker + (IntToString(n) + "#\\#" + w), Repeat("\\", n + 1) + s)
  {
    MarkedSplit(n, w);
    PartsMarked(n, LiteralSplit(w, Marker), s);
  }

  /** What a successful decoding means for `uncompressSlashes`: it returns
      the decoded text. */
  lemma {:induction false} DecodesUncompress(e: string, s: string)
    requires Decodes(e, s)
    ensures UncompressSlashes(e) == Success(s)
  {
    var parts := LiteralSplit(e, Marker);
    if |parts| == 1 {
      assert parts[1..] == [];
      assert e == s;
    } else {
      var strs := DropTrailingEmpty(parts);
      assert parts[|parts| - 1] != [];
      assert |strs| == |parts|;
      assert strs == parts;
    }
  }

  /* ---------------------------------------------------------------------
     The encoding, one run at a time
     --------------------------------------------------------------------- */

  /** A non-empty string is a run of `count` backslashes, the character the
      compression loop stops on, and the rest; its encoding is made of the
      same three parts. */
  lemma {:induction false} Decompose(s: string) returns (count: nat)
    requires |s| > 0
    ensures count < |s|
    ensures forall k | 0 <= k < count :: s[k] == '\\'
    ensures s[count] != '\\' || count == |s| - 1
    ensures s == Repeat("\\", count) + ([s[count]] + s[count + 1..])
    ensures EncodeRuns(s) == RunText(count) + ([s[count]] + EncodeRuns(s[count + 1..]))
  {
    var n := RunLength(s);
    RunLengthMaximal(s);
    count := if n == |s| then n - 1 else n;
    EncodeRunsStep(s, count);
    RepeatChar('\\', count);
    assert s[..count] == Repeat("\\", count);
    CutAround(s, count);
    AppendAssoc(RunText(count), [s[count]], EncodeRuns(s[count + 1..]));
  }

  lemma {:induction false} HashFreeSuffix(s: string, k: nat)
    requires HashFree(s) && k <= |s|
    ensures HashFree(s[k..])
  {
    assert forall i | 0 <= i < |s| - k :: s[k..][i] == s[k + i];
  }

  /** Encoded text that starts with `#` starts with the marker's `#H`. */
  predicate HashStartsMarker(e: string) {
    |e| > 0 && e[0] == '#' ==> |e| > 1 && e[1] == 'H'
  }

  lemma {:induction false} EncodeHead(s: string)
    requires HashFree(s)
    ensures HashStartsMarker(EncodeRuns(s))
  {
    if |s| > 0 {
      var count := Decompose(s);
      var run := RunText(count);
      var tail := [s[count]] + EncodeRuns(s[count + 1..]);
      assert EncodeRuns(s) == run + tail;
      if count > SlashThreshold {
        MarkerRunHead(count);
        AppendHead(run, tail);
      } else if count > 0 {
        RepeatChar('\\', count);
        AppendHead(run, tail);
      } else {
        assert run == [];
        assert (run + tail)[0] == s[0];
      }
    }
  }

  /** A compressed run starts with the marker's `#H`. */
  lemma {:induction false} MarkerRunHead(count: nat)
    requires count > SlashThreshold
    ensures |RunText(count)| >= 2 && RunText(count)[0] == '#' && RunText(count)[1] == 'H'
  {
    var rest := IntToString(count - 1) + "#\\#";
    AppendAssoc(Marker, IntToString(count - 1), "#\\#");
    assert RunText(count) == Marker + rest;
  }

  lemma {:induction false} AppendHead(a: string, b: string)
    requires |a| > 0
    ensures (a + b)[0] == a[0]
    ensures |a| > 1 ==> (a + b)[1] == a[1]
  {
  }

  /** A character other than `#` in front of encoded text never starts `H#A`. */
  lemma {:induction false} NoHashAfterChar(d: char, y: string)
    requires d != '#' && HashStartsMarker(y)
    ensures NoHashA([d] + y)
  {
  }

  /** The round trip at the level of pieces: splitting the encoding of
      `#`-free text and expanding its fragments gives the text back. */
  lemma {:induction false} EncodeDecodes(s: string)
    requires HashFree(s) && |s| <= MaxInt
    ensures Decodes(EncodeRuns(s), s)
    decreases |s|
  {
    if |s| == 0 {
      DecodesEmpty();
      return;
    }
    var count := Decompose(s);
    var d := s[count];
    var rest := s[count + 1..];
    HashFreeSuffix(s, count + 1);
    EncodeDecodes(rest);
    var y := EncodeRuns(rest);
    HashFreeNoOccurrence([d], y);
    PrefixDecodes([d], y, rest);
    if count > SlashThreshold {
      EncodeHead(rest);
      NoHashAfterChar(d, y);
      MarkedStep(count, [d] + y, [d] + rest);
      DecodesCongruent(RunText(count) + ([d] + y), Repeat("\\", count) + ([d] + rest), EncodeRuns(s), s);
    } else {
      var run := Repeat("\\", count);
      RepeatChar('\\', count);
      assert HashFree(run);
      HashFreeNoOccurrence(run, [d] + y);
      PrefixDecodes(run, [d] + y, [d] + rest);
      DecodesCongruent(run + ([d] + y), run + ([d] + rest), EncodeRuns(s), s);
    }
  }

  /** A run of `count` backslashes, long enough to be compressed, in front
      of encoded text that decodes to `u`. */
  lemma {:induction false} MarkedStep(count: nat, w: string, u: string)
    requires SlashThreshold < count <= MaxInt
    requires NoHashA(w) && Decodes(w, u)
    ensures Decodes(RunText(count) + w, Repeat("\\", count) + u)
  {
    var n := count - 1;
    MarkedRunDecodes(n, w, u);
    MarkedRunText(n, w);
    assert Decodes(Marker + (IntToString(n) + "#\\#" + w), Repeat("\\", n + 1) + u);
    assert Marker + (IntToString(n) + "#\\#" + w) == RunText(count) + w;
    assert Repeat("\\", n + 1) + u == Repeat("\\", count) + u;
    DecodesCongruent(Marker + (IntToString(n) + "#\\#" + w), Repeat("\\", n + 1) + u,
                     RunText(count) + w, Repeat("\\", count) + u);
  }

  /** The text of a compressed run followed by `w`, regrouped as
      `MarkedRunDecodes` reads it. */
  lemma {:induction false} MarkedRunText(n: nat, w: string)
    requires n + 1 > SlashThreshold
    ensures RunText(n + 1) + w == Marker + (IntToString(n) + "#\\#" + w)
  {
    var i := IntToString(n);
    assert ((Marker + i) + "#\\#") + w == Marker + ((i + "#\\#") + w);
  }

  lemma {:induction false} DecodesCongruent(e: string, s: string, e': string, s': string)
    requires Decodes(e, s) && e == e' && s == s'
    ensures Decodes(e', s')
  {
  }

  /* ---------------------------------------------------------------------
     Properties of the transcoder
     --------------------------------------------------------------------- */

  /** Decompression undoes the run-length encoding of `#`-free text of any
      Java string length. */
  lemma {:induction false} UncompressEncodeRuns(s: string)
    requires HashFree(s) && |s| <= MaxInt
    ensures UncompressSlashes(EncodeRuns(s)) == Success(s)
  {
    EncodeDecodes(s);
    DecodesUncompress(EncodeRuns(s), s);
  }

  /** Round trip: `uncompressSlashes(compressSlashes(s)) == s` for `#`-free
      strings, whatever the configured maximum value size. */
  lemma {:induction false} CompressRoundTrip(s: string, maxValueByteSize: Int32)
    requires HashFree(s) && |s| <= MaxInt
    ensures CompressSlashes(s, maxValueByteSize).Success?
    ensures UncompressSlashes(CompressSlashes(s, maxValueByteSize).value) == Success(s)
  {
    HashFreeNoMarker(s);
    UncompressEncodeRuns(s);
  }

  /** Idempotence: compressing compressed `#`-free text changes nothing,
      because compression decompresses first. */
  lemma {:induction false} CompressIdempotent(s: string, maxValueByteSize: Int32)
    requires HashFree(s) && |s| <= MaxInt
    ensures CompressSlashes(s, maxValueByteSize).Success?
    ensures CompressSlashes(CompressSlashes(s, maxValueByteSize).value, maxValueByteSize)
         == CompressSlashes(s, maxValueByteSize)
  {
    HashFreeNoMarker(s);
    UncompressEncodeRuns(s);
  }

  /** `s` holds more than `SlashThreshold` consecutive backslashes from `i`. */
  predicate LongRunAt(s: string, i: int) {
    0 <= i && i + SlashThreshold < |s| && forall j | i <= j <= i + SlashThreshold :: s[j] == '\\'
  }

  /** Text whose backslash runs are all at most `SlashThreshold` long is
      copied unchanged. */
  lemma {:induction false} ShortRunsCopied(s: string)
    requires forall i | 0 <= i < |s| :: !LongRunAt(s, i)
    ensures EncodeRuns(s) == s
    decreases |s|
  {
    if |s| > 0 {
      var count := Decompose(s);
      if count > SlashThreshold {
        assert LongRunAt(s, 0);
      }
      var rest := s[count + 1..];
      forall i | 0 <= i < |rest|
        ensures !LongRunAt(rest, i)
      {
        if LongRunAt(rest, i) {
          assert LongRunAt(s, i + count + 1);
        }
      }
      ShortRunsCopied(rest);
    }
  }

  /** Serializing and deserializing a `#`-free raw string gives back the type's
      own deserialization of it, or the type's default when it was replaced
      by the sentinel; a string other than the sentinel stays below the cap. */
  lemma {:induction false} SerializeRawRoundTrip<T>(raw: string, maxValueByteSize: Int32, default: T, deserialize: string -> T)
    requires HashFree(raw) && |raw| <= MaxInt
    ensures SerializeRaw(raw, maxValueByteSize).Success?
    ensures var persisted := SerializeRaw(raw, maxValueByteSize).value;
      DeserializeRaw(persisted, default, deserialize)
        == Success(if persisted == TooLong then default else deserialize(raw))
  {
    CompressRoundTrip(raw, maxValueByteSize);
  }

  /** A fragment that cannot be expanded makes the whole expansion fail. */
  lemma {:induction false} ExpandFragmentsFails(fragments: seq<string>, k: int)
    requires 0 <= k < |fragments| && ExpandFragment(fragments[k]).Failure?
    ensures ExpandFragments(fragments).Failure?
    decreases k
  {
    if k > 0 && ExpandFragment(fragments[0]).Success? {
      assert fragments[1..][k - 1] == fragments[k];
      ExpandFragmentsFails(fragments[1..], k - 1);
    }
  }

  /** The transcoder is not an inverse on input that already holds the marker
      text: when splitting on the marker keeps a piece after a marker that
      has no `#` in it, decompression throws, and so does compression of a
      string long enough to be decompressed first. A marker with nothing
      after it is not such a piece, since the split drops it. */
  lemma {:induction false} HashlessFragmentFails(str: string, k: int, maxValueByteSize: Int32)
    requires 1 <= k < |Split(str, Marker)| && HashFree(Split(str, Marker)[k])
    ensures UncompressSlashes(str).Failure?
    ensures |str| >= TruncDiv(maxValueByteSize, 4) ==> CompressSlashes(str, maxValueByteSize).Failure?
  {
    var strs := Split(str, Marker);
    var fragment := strs[k];
    assert strs[1..][k - 1] == fragment;
    ExpandFragmentsFails(strs[1..], k - 1);
  }

  /** A marker at the very end of non-empty `#`-free text is left alone: the
      split drops the empty piece after it, so the text is its own
      decompression. (A lone marker splits into no pieces at all, and
      reading the first piece throws.) */
  lemma {:induction false} TrailingMarkerKept(x: string)
    requires HashFree(x) && |x| > 0
    ensures UncompressSlashes(x + Marker) == Success(x + Marker)
  {
    var s := x + Marker;
    FindAfterPrefix(x, Marker, []);
    assert s + [] == s;
    assert s[..|x|] == x;
    assert s[|x| + |Marker|..] == [];
    assert LiteralSplit([], Marker) == [[]];
    assert LiteralSplit(s, Marker) == [x, []];
    assert DropTrailingEmpty([x, []]) == [x];
  }

  /** The lone marker: no pieces, so reading the first one throws. */
  lemma {:induction false} LoneMarkerFails()
    ensures UncompressSlashes(Marker) == Failure(IndexOutOfBounds)
  {
    SplitAfterMarker([]);
    assert Marker + [] == Marker;
    assert LiteralSplit([], Marker) == [[]];
    assert DropTrailingEmpty([[], []]) == [];
  }

  /** The smallest such input: a marker followed by `x`. */
  lemma {:induction false} MarkerInInputFails()
    ensures UncompressSlashes(Marker + "x") == Failure(IndexOutOfBounds)
    ensures CompressSlashes(Marker + "x", 40) == Failure(IndexOutOfBounds)
  {
    SplitAfterMarker("x");
    assert LiteralSplit("x", Marker) == ["x"];
    assert IndexOfChar("x", '#', 0) == None;
  }
}

=== FILE: slash_compression.dfy ===
/** The scanning loop of `ValueHelpers.compressSlashes`, shown to compute the
    run-length encoding `SlashCodec.EncodeRuns`. */
module SlashCompression {
  import opened JavaStrings
  import opened SlashCodec

  /** The same pass, on the suffix of `str` that starts at `start`. */
  lemma {:induction false} LoopStep(str: string, start: nat, i: nat, count: nat)
    requires start <= i < |str| && count == i - start
    requires forall k | start <= k < i :: str[k] == '\\'
    requires str[i] != '\\' || i == |str| - 1
    ensures EncodeRuns(str[start..]) == RunText(count) + [str[i]] + EncodeRuns(str[i + 1..])
  {
    var t := str[start..];
    DropDrop(str, start, count + 1);
    StepAt(t, count, str[i], str[i + 1..]);
  }

  /** `EncodeRunsStep` with the character and the rest named by the caller. */
  lemma {:induction false} StepAt(t: string, count: nat, c: char, rest: string)
    requires count < |t|
    requires forall k | 0 <= k < count :: t[k] == '\\'
    requires t[count] != '\\' || count == |t| - 1
    requires c == t[count] && rest == t[count + 1..]
    ensures EncodeRuns(t) == RunText(count) + [c] + EncodeRuns(rest)
  {
    EncodeRunsStep(t, count);
  }

  lemma {:induction false} DropDrop(s: string, a: nat, b: nat)
    requires a + b <= |s|
    ensures s[a..][b..] == s[a + b..]
  {
  }

  /** Before the loop nothing is emitted and all of `str` is still to come. */
  lemma {:induction false} LoopEntry(str: string)
    ensures [] + EncodeRuns(str[0..]) == EncodeRuns(str)
  {
    assert str[0..] == str;
  }

  /** After a pass the emitted text has grown by the run and the character
      ending it, and what remains to be encoded starts after that character. */
  lemma {:induction false} LoopEmit(str: string, start: nat, i: nat, count: nat, c: char, sb: string, sb': string, next: nat)
    requires start <= i < |str| && count == i - start && c == str[i]
    requires forall k | start <= k < i :: str[k] == '\\'
    requires str[i] != '\\' || i == |str| - 1
    requires sb + EncodeRuns(str[start..]) == EncodeRuns(str)
    requires sb' == sb + RunText(count) + [c] && next == i + 1
    ensures sb' + EncodeRuns(str[next..]) == EncodeRuns(str)
  {
    LoopStep(str, start, i, count);
    ConcatAssoc(sb, RunText(count), [c], EncodeRuns(str[i + 1..]));
  }

  /** At the end nothing remains to be encoded. */
  lemma {:induction false} LoopExit(str: string, sb: string)
    requires sb + EncodeRuns(str[|str|..]) == EncodeRuns(str)
    ensures sb == EncodeRuns(str)
  {
    assert str[|str|..] == [];
  }

  lemma {:induction false} ConcatAssoc(a: string, b: string, c: string, d: string)
    ensures (a + b + c) + d == a + (b + c + d)
  {
  }

  /** The inner loop of `compressSlashes`: from `start` it counts backslashes
      while not on the last character, and stops on the character after the
      run, or on the last character. */
  method CountRun(str: string, start: nat) returns (i: nat, c: char)
    requires start < |str|
    ensures start <= i < |str| && c == str[i]
    ensures forall k | start <= k < i :: str[k] == '\\'
    ensures str[i] != '\\' || i == |str| - 1
  {
    i := start;
    c := str[i];
    while c == '\\' && i < |str| - 1
      invariant start <= i < |str|
      invariant c == str[i]
      invariant forall k | start <= k < i :: str[k] == '\\'
    {
      i := i + 1;
      c := str[i];
    }
  }

  /** One pass of the outer loop of `compressSlashes`: count the run of
      backslashes from `i`, append its replacement `RunText(count)` (the marker
      form above `SlashThreshold`, the backslashes themselves otherwise), then
      the character that ended the run, and continue after that character. */
  method EmitRun(str: string, i: nat, sb: string) returns (next: nat, sb': string)
    requires i < |str|
    requires sb + EncodeRuns(str[i..]) == EncodeRuns(str)
    ensures i < next <= |str|
    ensures sb' + EncodeRuns(str[next..]) == EncodeRuns(str)
  {
    var end, c := CountRun(str, i);
    var count: nat := end - i;
    sb' := sb + RunText(count) + [c];
    next := end + 1;
    LoopEmit(str, i, end, count, c, sb, sb', next);
  }

  /** `compressSlashes` after its initial decompression: passes of `EmitRun`
      from the start of the string to its end. */
  method CompressLoop(str: string) returns (sb: string)
    ensures sb == EncodeRuns(str)
  {
    sb := [];
    var i := 0;
    LoopEntry(str);
    while i < |str|
      invariant 0 <= i <= |str|
      invariant sb + EncodeRuns(str[i..]) == EncodeRuns(str)
    {
      i, sb := EmitRun(str, i, sb);
    }
    LoopExit(str, sb);
  }
}

=== FILE: values.dfy ===
/** Values, value types, variables and operators, plus the small helpers of
    `ValueHelpers` that work on them element by element. */
module Values {
  import opened Wrappers
  import opened JavaStrings

  /** The value types the model tells apart: `OperatorType` is
      `ValueTypes.OPERATOR`, `BlockType` is `ValueTypes.OBJECT_BLOCK`, and every
      other registered type is known by its key. */
  datatype ValueType = OperatorType | BlockType | OtherType(key: string)

  /** A block state, identified with the (registry name, metadata) pair that
      the block helpers convert it to and from. */
  datatype BlockState = BlockState(name: string, meta: Int32)

  /** An operator: a registered primitive known by its key, or a
      `CurriedOperator` that binds leading arguments of a base operator. */
  datatype Operator =
    | Primitive(key: string)
    | Curried(base: Operator, args: seq<Variable>)

  /** A variable an operator reads its inputs from. */
  datatype Variable =
    | Constant(value: Value)                     // `new Variable<>(value.getType(), value)`
    | Dynamic(id: int, declaredType: ValueType)  // any other variable, read lazily
  {
    function Type(): ValueType {
      match this
      case Constant(v) => v.Type()
      case Dynamic(_, t) => t
    }
  }

  /** An immutable typed value. A value has type `OPERATOR` exactly when it is
      a `ValueOperator`, which is what lets the source cast such a result. */
  datatype Value =
    | OperatorValue(op: Operator)
    | BlockValue(state: BlockState)
    | OtherValue(key: string, payload: string)
  {
    function Type(): (t: ValueType)
      ensures t == OperatorType <==> OperatorValue?
    {
      match this
      case OperatorValue(_) => OperatorType
      case BlockValue(_) => BlockType
      case OtherValue(k, _) => OtherType(k)
    }
  }

  /** A variable facade stored in a variable container, known by its id. */
  datatype VariableFacade = VariableFacade(id: int, outputType: ValueType)

  /** `areValuesEqual`: two absent values are equal, an absent and a present
      one are not, and two present ones are compared with `equals`. */
  function AreValuesEqual<V>(v1: Option<V>, v2: Option<V>, equals: (V, V) -> bool): (r: bool)
    ensures v1.None? && v2.None? ==> r
    ensures v1.None? != v2.None? ==> !r
    ensures v1.Some? && v2.Some? ==> (r <==> equals(v1.value, v2.value))
  {
    (v1.None? && v2.None?) || (!(v1.None? || v2.None?) && equals(v1.value, v2.value))
  }

  /** A reflexive `equals` makes `areValuesEqual` reflexive, null included. */
  lemma {:induction false} AreValuesEqualReflexive<V>(equals: (V, V) -> bool, v: Option<V>)
    requires forall a :: equals(a, a)
    ensures AreValuesEqual(v, v, equals)
  {
  }

  /** A symmetric `equals` makes `areValuesEqual` symmetric. */
  lemma {:induction false} AreValuesEqualSymmetric<V>(equals: (V, V) -> bool, v1: Option<V>, v2: Option<V>)
    requires forall a, b :: equals(a, b) == equals(b, a)
    ensures AreValuesEqual(v1, v2, equals) == AreValuesEqual(v2, v1, equals)
  {
  }

  /** `correspondsTo`: the types correspond when either one says it corresponds
      to the other; `corresponds` is the value types' own one-way check. */
  function CorrespondsTo(t1: ValueType, t2: ValueType, corresponds: (ValueType, ValueType) -> bool): (r: bool)
    ensures corresponds(t1, t2) ==> r
    ensures corresponds(t2, t1) ==> r
    ensures r ==> corresponds(t1, t2) || corresponds(t2, t1)
  {
    corresponds(t1, t2) || corresponds(t2, t1)
  }

  /** The bidirectional check is symmetric and holds whenever either one-way
      check does. */
  lemma {:induction false} CorrespondsToSymmetric(t1: ValueType, t2: ValueType, corresponds: (ValueType, ValueType) -> bool)
    ensures CorrespondsTo(t1, t2, corresponds) == CorrespondsTo(t2, t1, corresponds)
    ensures corresponds(t1, t2) ==> CorrespondsTo(t1, t2, corresponds)
    ensures !corresponds(t1, t2) && !corresponds(t2, t1) ==> !CorrespondsTo(t1, t2, corresponds)
  {
  }

  /** `from(IVariable...)`: the type of each variable, position by position,
      with `null` staying `null`. */
  method FromVariables(variables: seq<Option<Variable>>) returns (types: seq<Option<ValueType>>)
    ensures |types| == |variables|
    ensures forall i | 0 <= i < |variables| :: types[i].None? <==> variables[i].None?
    ensures forall i | 0 <= i < |variables| && variables[i].Some? :: types[i] == Some(variables[i].value.Type())
  {
    types := [];
    var i := 0;
    while i < |variables|
      invariant 0 <= i <= |variables|
      invariant |types| == i
      invariant forall j | 0 <= j < i :: types[j].None? <==> variables[j].None?
      invariant forall j | 0 <= j < i && variables[j].Some? :: types[j] == Some(variables[j].value.Type())
    {
      var variable := variables[i];
      types := types + [if variable.None? then None else Some(variable.value.Type())];
      i := i + 1;
    }
  }

  /** `from(IVariableFacade...)`: the output type of each facade, position by
      position, with `null` staying `null`. */
  method FromFacades(facades: seq<Option<VariableFacade>>) returns (types: seq<Option<ValueType>>)
    ensures |types| == |facades|
    ensures forall i | 0 <= i < |facades| :: types[i].None? <==> facades[i].None?
    ensures forall i | 0 <= i < |facades| && facades[i].Some? :: types[i] == Some(facades[i].value.outputType)
  {
    types := [];
    var i := 0;
    while i < |facades|
      invariant 0 <= i <= |facades|
      invariant |types| == i
      invariant forall j | 0 <= j < i :: types[j].None? <==> facades[j].None?
      invariant forall j | 0 <= j < i && facades[j].Some? :: types[j] == Some(facades[j].value.outputType)
    {
      var facade := facades[i];
      types := types + [if facade.None? then None else Some(facade.value.outputType)];
      i := i + 1;
    }
  }
}

=== FILE: wrappers.dfy ===
/** Failure-compatible wrappers: `Option` stands for a nullable Java reference,
    `Result` for a computation that either returns or throws. */
module Wrappers {

  datatype Option<+T> = None | Some(value: T)

  datatype Result<+R, +E> = Success(value: R) | Failure(error: E) {

    predicate IsFailure() {
      Failure?
    }

    function PropagateFailure<U>(): Result<U, E>
      requires Failure?
    {
      Failure(error)
    }

    function Extract(): R
      requires Success?
    {
      value
    }
  }
}
